=== FILE: README.md ===
# kanidm SPN plugin and server configuration, modelled in Dafny

This project models two pieces of the kanidm identity server.

**The SPN plugin** (`plugin_spn`). Every directory entry of class `account` or `group` carries exactly one service principal name (SPN), `name@domain`. It is derived from the entry's own `name` and from the domain name held on the domain-info entry. The plugin's hooks work as follows:

- `pre_create_transform` and `pre_modify` overwrite `spn` on every such candidate. The domain name is looked up lazily, at most once per call.
- `post_modify` watches for a change of `domain_name` on the domain-info entry. On a change it purges `spn` on every account and group with one internal modify, whose `pre_modify` regenerates the values.
- `verify` is a read-only audit that reports every account or group whose SPN is missing or wrong.

**The server configuration** (`Configuration`). This covers:

- the replica role and its string parser;
- the `update_*` setters driven by the command line, including the rule that TLS takes both a chain and a key or neither;
- the one-line `Display` rendering.

Modules:

- `Wrappers`: `Option` and `Result`.
- `Proto`: the error values the plugin reports.
- `Entries`: entries as a storage id plus a map from attribute name to a set of values. It also holds the entry operations the plugin calls: `attribute_value_pres`, `get_ava_single`, `set_ava`, modlists and `generate_spn`.
- `Store`: the committed entries of a write transaction, with search, write-back by id and `get_domain_name`.
- `Spn`: the plugin's hooks. `Spn.Regenerate` is the reference for what a pre-hook does. The methods follow the source's loop and are proved equal to it.
- `Server`: the write paths with the plugin installed (modify, domain rename, create), the invariant they keep, and the audit run against a store.
- `Config`: the configuration record, its setters and its rendering.
- `Scenarios`: two of the plugin's test cases, replayed on the model.

Calls into code that is not part of this model are modelled by the behaviour the plugin relies on:

- `generate_spn` gives `name@domain` when `name` holds exactly one string, and nothing otherwise.
- `get_domain_name` reads the single string `domain_name` of the first entry carrying the domain-info uuid. It fails with `NoMatchingEntries` when there is no such entry and with `InvalidEntryState` when the value is missing or not single.
- `internal_modify` searches, applies the modlist to each match, runs `pre_modify`, and writes the candidates back by id; this is `Spn.InternalModify`. A full modify, `Server.ModifyStore`, then runs `post_modify` on the (pre, post) pairs. The `post_modify` of the nested modify that `post_modify` itself issues is not run (see "## Left out").

## Model

| member | source | states |
|---|---|---|
| Spn.Regenerate | kanidmd/src/lib/plugins/spn.rs:39-78 | A pre-hook succeeds exactly when no candidate is an account or group, or when the domain name can be read and every account and group has a single name. Otherwise it fails with the lookup's error or with `InvalidEntryState`. On success, other entries are untouched, no attribute but `spn` changes, and each account's or group's `spn` is exactly `{name@domain}`. |
| Spn.SetSpnOnTargets | kanidmd/src/lib/plugins/spn.rs:39-78 | The hook's loop computes `Regenerate`. It reads the domain name at most once, and only when some candidate is an account or group. |
| Spn.PreCreateTransform | kanidmd/src/lib/plugins/spn.rs:27-79 | `pre_create_transform` computes `Regenerate` with one lookup at most, and only if it needs one. |
| Spn.PreModify | kanidmd/src/lib/plugins/spn.rs:81-128 | `pre_modify` computes `Regenerate` with one lookup at most, and only if it needs one. |
| Spn.RegeneratedIsConsistent | kanidmd/src/lib/plugins/spn.rs:63-75 | After a successful pre-hook every account and group passes the audit's check, and no entry has changed class. |
| Spn.CheckSpn | kanidmd/src/lib/plugins/spn.rs:212-245 | One entry is reported exactly when its SPN cannot be generated, is missing or multi-valued, or differs from the generated one. |
| Spn.Verify | kanidmd/src/lib/plugins/spn.rs:189-248 | A failed domain-name lookup or search gives exactly one `QueryServerSearchFailure`. Otherwise the findings are those of the reference fold over the searched entries. |
| Spn.FindingsSound | kanidmd/src/lib/plugins/spn.rs:212-245 | Every finding is an `InvalidSpn` naming the id of an entry whose SPN is wrong. |
| Spn.FindingsComplete | kanidmd/src/lib/plugins/spn.rs:212-245 | Every entry whose SPN is wrong is named by a finding. |
| Spn.FindingsEmpty | kanidmd/src/lib/plugins/spn.rs:210-248 | The audit reports nothing exactly when every searched entry is consistent. |
| Spn.OneBadEntryOneFinding | kanidmd/src/lib/plugins/spn.rs:212-245 | One bad entry among good ones gives exactly one finding, naming its id. |
| Spn.ChangeFold | kanidmd/src/lib/plugins/spn.rs:142-155 | The fold over (post, pre) pairs gives nothing exactly when no pair renames the domain-info entry to a single value. Otherwise it gives the new value of the first pair that does. |
| Spn.InternalModifyPointwise | kanidmd/src/lib/plugins/spn.rs:170-177 | An internal modify replaces each matching entry by its post-image and keeps every other entry. |
| Spn.PostModify | kanidmd/src/lib/plugins/spn.rs:130-178 | With no rename detected, `post_modify` writes nothing. When it succeeds, it keeps ids, every attribute but `spn`, and the domain name, and it leaves every entry that is neither account nor group exactly as it was. After a rename, every account and group is consistent with the domain name. |
| Spn.CascadeRepairs | kanidmd/src/lib/plugins/spn.rs:168-177 | The purge cascade changes nothing but `spn`, leaves every entry that is neither account nor group exactly as it was, keeps the domain name, and leaves every account and group consistent with it. |
| Spn.CascadeDoesNotRetrigger | kanidmd/src/lib/plugins/spn.rs:142-177 | The cascade's internal modify yields no (post, pre) pair that changes `domain_name`, so its own `post_modify` would detect no rename and do nothing. |
| Server.ModifyKeepsSpnInvariant | kanidmd/src/lib/plugins/spn.rs:81-177 | A successful modify that leaves `uuid` alone keeps storage ids distinct. It also keeps every account's and group's SPN consistent with the store's domain name. |
| Server.ModifyRegeneratesMatched | kanidmd/src/lib/plugins/spn.rs:112-124 | Whatever the modlist does to `spn` (purge, remove, or present a bogus value), each matched account or group ends with exactly the SPN for the store's domain name. |
| Server.ModifyFrame | kanidmd/src/lib/plugins/spn.rs:92-124 | Outside `spn`, a matched entry holds what the modlist produced, and an unmatched entry is unchanged. An unmatched entry that is neither account nor group is wholly unchanged, and a matched one that is neither after the modlist is exactly the modlist's result, `spn` included. |
| Server.RenameSucceeds | kanidmd/src/lib/plugins/spn.rs:112-122 | A rename succeeds when the domain-info entry is not an account or group and every account and group has a single name. |
| Server.RenameRegeneratesEverySpn | kanidmd/src/lib/plugins/spn.rs:142-177 | Renaming the domain to a new name makes the store answer that name. Every account's and group's SPN is then regenerated with it, whatever state it was in before. |
| Server.RenameToCurrentNameIsNoOp | kanidmd/src/lib/plugins/spn.rs:145-160 | When no domain-info entry is an account or group, renaming the domain to the name every domain-info entry already holds changes nothing. |
| Server.RenameIsIdempotent | kanidmd/src/lib/plugins/spn.rs:142-160 | When no domain-info entry is an account or group, running the same rename twice gives the same store as running it once. |
| Server.Create | kanidmd/src/lib/plugins/spn.rs:27-79 | A create succeeds exactly when no candidate is an account or group, or the domain name can be read and every account and group has a name. It appends one entry per candidate and keeps the existing entries. |
| Server.CreateKeepsSpnInvariant | kanidmd/src/lib/plugins/spn.rs:41-76 | Creating entries other than the domain-info entry keeps ids distinct and keeps the domain name. Every account and group, new or old, is then consistent with it, whatever SPN the request carried. |
| Server.VerifyStore | kanidmd/src/lib/plugins/spn.rs:189-248 | The audit of a store is one `InvalidSpn` per account or group with a wrong SPN, in store order, so each such entry is reported exactly once. It reports nothing exactly when every account and group is consistent. Each finding names an account or group whose SPN is wrong, and every such entry is named by a finding. Without a domain name it reports one `QueryServerSearchFailure`. |
| Scenarios.ForgedSpnIsReplaced | kanidmd/src/lib/plugins/spn.rs:308-333 | An account created carrying `testperson@invalid_domain.com` ends up with `testperson@example.com`. |
| Scenarios.AdminSpnFollowsRename | kanidmd/src/lib/plugins/spn.rs:364-399 | Renaming `example.com` to `new.example.com` moves the administrator's SPN from `admin@example.com` to `admin@new.example.com`. |
| Entries.GenerateSpn | kanidmd/src/lib/plugins/spn.rs:63-65 | An SPN is generated exactly when the entry has a single string name, and it is `name@domain`. |
| Entries.ApplyModlist | kanidmd/src/lib/plugins/spn.rs:170-177 | Applying a modlist keeps the entry's id and every attribute no modification names. |
| Store.GetDomainName | kanidmd/src/lib/plugins/spn.rs:47 | The lookup fails with `NoMatchingEntries` exactly when no entry carries the domain-info uuid. On success, a domain-info entry holds exactly that name. |
| Config.ParseRole | kanidmd/src/lib/config.rs:30-41 | Exactly the three strings `write_replica`, `write_replica_no_ui` and `read_only_replica` parse, each to its own role. Every other string gives the fixed error message. |
| Config.RoleName | kanidmd/src/lib/config.rs:17-40 | Every role has exactly one name that the parser maps back to it. |
| Config.DefaultRole | kanidmd/src/lib/config.rs:24-28 | The default role is the one the parser reads from `write_replica`. |
| Config.UpdateLogLevel | kanidmd/src/lib/config.rs:118-120 | Sets the log level and changes no other field. |
| Config.UpdateDbPath | kanidmd/src/lib/config.rs:122-124 | Sets the database path and changes no other field. |
| Config.UpdateDbArcSize | kanidmd/src/lib/config.rs:126-128 | Sets the arc cache size and changes no other field. |
| Config.UpdateDbFsType | kanidmd/src/lib/config.rs:130-132 | Stores the file-system type lower-cased character by character, or nothing, and changes no other field. |
| Config.DbFsTypeIdempotent | kanidmd/src/lib/config.rs:130-132 | Setting the file-system type twice equals setting it once. Re-storing a stored value that is already lower case changes nothing. |
| Config.UpdateBind | kanidmd/src/lib/config.rs:134-139 | Sets the address to the given one, or to `127.0.0.1:8080` when none is given, and changes no other field. |
| Config.UpdateLdapBind | kanidmd/src/lib/config.rs:141-143 | Sets the LDAP address, possibly to none, and changes no other field. |
| Config.UpdateOrigin | kanidmd/src/lib/config.rs:145-147 | Sets the origin and changes no other field. |
| Config.UpdateRole | kanidmd/src/lib/config.rs:149-151 | Sets the role and changes no other field. |
| Config.UpdateTls | kanidmd/src/lib/config.rs:153-166 | Succeeds exactly when chain and key are both given or both absent. With neither, nothing changes. With both, the TLS configuration is set to them and no other field changes. A mixed pair is an error. |
| Config.SettingsCommute | kanidmd/src/lib/config.rs:118-151 | Setters of different fields can be applied in either order. |
| Config.LastSettingWins | kanidmd/src/lib/config.rs:118-151 | Of two setters of the same field, the later one alone determines the result. |
| Config.Lower | kanidmd/src/lib/config.rs:131 | Lower-casing keeps the length, leaves no upper-case letter, and is the identity on lower-case text. |
| Config.Digits | kanidmd/src/lib/config.rs:69-79 | The numerals `Display` writes use only the base's digits, have no leading zero, and read back as the number. |
| Config.Display | kanidmd/src/lib/config.rs:62-89 | Every piece of the rendering occurs in the output. |
| Config.DisplayStartsWithAddress | kanidmd/src/lib/config.rs:64 | The rendering opens with `address: <address>, `. |
| Config.DisplayEndsWithIntegrationMode | kanidmd/src/lib/config.rs:82-88 | The rendering closes with `integration mode: true` or `false`, according to whether integration-test settings are present. |
| Config.DisplayOptionals | kanidmd/src/lib/config.rs:65-81 | An absent LDAP address, arc size or log level is shown as `disabled`, `AUTO` and `default`. A present one is shown as its value, with the arc size in decimal and the log level in lower-case hexadecimal. |
| Config.TlsShownAfterUpdate | kanidmd/src/lib/config.rs:77 | After `update_tls` with both a chain and a key, the rendering says `with TLS: true`. |

## Left out

- `kanidm_tools/src/cli/login.rs`: interactive prompts, token files, network authentication and hardware keys. This is command-line plumbing with no decision logic about SPNs or configuration.
- `Configuration::new`: it needs the CPU count and an entropy source for the cookie key. The record type is modelled; its construction is not.
- `entry.rs`, `server.rs`, `constants.rs` and the backend are not part of this model. `generate_spn`, `get_ava_single`, `get_domain_name`, search and write-back are stated by the behaviour described above.
- Store.GetDomainName: it does not model the error for several entries carrying the domain-info uuid. It reads the first one, because uniqueness of uuids is enforced elsewhere.
- Schema validation, filter resolution, transactions, locking and the other plugins are not modelled. A filter is any predicate on entries, and the store is one transaction's view.
- Audit and trace macros and `debug_assert!(false)` are not modelled. They have no effect on results in release builds. Neither is the unreachable "memory corruption" branch of the pre-hooks (the memo is always set before use).
- Server.CreateKeepsSpnInvariant: it covers only candidates that do not carry the domain-info uuid. Creating a domain-info entry in a store that has none gives the store a domain name its existing accounts' and groups' SPNs were never generated for. The server creates that entry once, before any account or group exists.
- Server.RenameToCurrentNameIsNoOp: it covers only stores whose domain-info entry is not an account or group. Otherwise the rename's `pre_modify` stamps an `spn` on that entry, so the store changes.
- Server.RenameIsIdempotent: it covers only stores whose domain-info entry is not an account or group, for the same reason.
- Server.Create: storage ids are taken from the candidates rather than allocated, and the other entry life-cycle states are not modelled.
- Spn.PostModify: the `post_modify` of the nested cascade modify is not run. `Spn.CascadeDoesNotRetrigger` proves it would do nothing.
- Server.ModifyKeepsSpnInvariant: it assumes the modlist does not touch `uuid`. Re-keying the domain-info entry is outside what the plugin handles.
- Server.ModifyRegeneratesMatched: it assumes the modlist does not touch `uuid`, for the same reason.
- Server.ModifyFrame: it assumes the modlist does not touch `uuid`, for the same reason.
- Config.UpdateDbFsType: lower case is modelled for ASCII letters only. Rust's `to_lowercase` covers all of Unicode.
- Config.UpdateTls: the process exit on a mixed pair is modelled as an error result.
- `usize` fields are unbounded naturals; the `u32` log level is bounded.
- The rendering of `Some("disabled")` as an LDAP address cannot be told apart from no LDAP address. This is how the source prints it, and the model keeps it.

=== FILE: config.dfy ===
/** The server configuration record (`kanidmd/src/lib/config.rs`): the replica role
    and its string parser, the `update_*` setters the command line drives, and the
    one-line `Display` rendering written to the log at start-up. */
module Config {
  import opened Wrappers

  /** A `u32`. */
  type U32 = n: nat | n < 0x1_0000_0000

  /** The 32-byte cookie signing key. */
  type CookieKey = k: seq<bv8> | |k| == 32 witness seq(32, _ => 0)

  /** What a replica is allowed to do. */
  datatype ServerRole = WriteReplica | WriteReplicaNoUI | ReadOnlyReplica

  /** The message `from_str` reports for any other string. */
  const RoleError: string := "Must be one of write_replica, write_replica_no_ui, read_only_replica"

  /** `ServerRole::from_str`: exactly the three role names are accepted. */
  function ParseRole(s: string): (r: Result<ServerRole, string>)
    ensures r.Ok? <==> s == "write_replica" || s == "write_replica_no_ui" || s == "read_only_replica"
    ensures r.Err? ==> r.error == RoleError
    ensures r == Ok(WriteReplica) <==> s == "write_replica"
    ensures r == Ok(WriteReplicaNoUI) <==> s == "write_replica_no_ui"
    ensures r == Ok(ReadOnlyReplica) <==> s == "read_only_replica"
  {
    if s == "write_replica" then Ok(WriteReplica)
    else if s == "write_replica_no_ui" then Ok(WriteReplicaNoUI)
    else if s == "read_only_replica" then Ok(ReadOnlyReplica)
    else Err(RoleError)
  }

  /** The name each role is written as on the command line; it is the one string
      the parser maps back to that role. */
  function RoleName(role: ServerRole): (s: string)
    ensures ParseRole(s) == Ok(role)
    ensures forall t :: ParseRole(t) == Ok(role) ==> t == s
  {
    match role
    case WriteReplica => "write_replica"
    case WriteReplicaNoUI => "write_replica_no_ui"
    case ReadOnlyReplica => "read_only_replica"
  }

  /** `ServerRole::default`: the role whose name is `write_replica`. */
  function DefaultRole(): (r: ServerRole)
    ensures ParseRole("write_replica") == Ok(r)
  {
    WriteReplica
  }

  datatype TlsConfiguration = TlsConfiguration(chain: string, key: string)

  datatype IntegrationTestConfig = IntegrationTestConfig(adminUser: string, adminPassword: string)

  /** `Configuration`. `usize` fields are unbounded naturals. */
  datatype Configuration = Configuration(
    address: string,
    ldapaddress: Option<string>,
    threads: nat,
    dbPath: string,
    dbFsType: Option<string>,
    dbArcSize: Option<nat>,
    maximumRequest: nat,
    secureCookies: bool,
    tlsConfig: Option<TlsConfiguration>,
    cookieKey: CookieKey,
    integrationTestConfig: Option<IntegrationTestConfig>,
    logLevel: Option<U32>,
    origin: string,
    role: ServerRole)

  /** The fields of a configuration, to say which one a setter writes. */
  datatype Field =
    | Address | LdapAddress | Threads | DbPath | DbFsType | DbArcSize | MaximumRequest
    | SecureCookies | TlsConfig | CookieKeyField | IntegrationTest | LogLevel | Origin | Role

  /** The two configurations hold the same value in field `f`. */
  predicate Same(a: Configuration, b: Configuration, f: Field) {
    match f
    case Address => a.address == b.address
    case LdapAddress => a.ldapaddress == b.ldapaddress
    case Threads => a.threads == b.threads
    case DbPath => a.dbPath == b.dbPath
    case DbFsType => a.dbFsType == b.dbFsType
    case DbArcSize => a.dbArcSize == b.dbArcSize
    case MaximumRequest => a.maximumRequest == b.maximumRequest
    case SecureCookies => a.secureCookies == b.secureCookies
    case TlsConfig => a.tlsConfig == b.tlsConfig
    case CookieKeyField => a.cookieKey == b.cookieKey
    case IntegrationTest => a.integrationTestConfig == b.integrationTestConfig
    case LogLevel => a.logLevel == b.logLevel
    case Origin => a.origin == b.origin
    case Role => a.role == b.role
  }

  /** Every field but `f` is the same. */
  predicate AgreeExcept(a: Configuration, b: Configuration, f: Field) {
    forall g: Field :: g != f ==> Same(a, b, g)
  }

  /** Configurations that agree on every field are equal. */
  lemma SameEverywhere(a: Configuration, b: Configuration)
    requires forall g: Field :: Same(a, b, g)
    ensures a == b
  {
    assert Same(a, b, Address) && Same(a, b, LdapAddress) && Same(a, b, Threads);
    assert Same(a, b, DbPath) && Same(a, b, DbFsType) && Same(a, b, DbArcSize);
    assert Same(a, b, MaximumRequest) && Same(a, b, SecureCookies) && Same(a, b, TlsConfig);
    assert Same(a, b, CookieKeyField) && Same(a, b, IntegrationTest) && Same(a, b, LogLevel);
    assert Same(a, b, Origin) && Same(a, b, Role);
  }

  // ---------------------------------------------------------------- lower case

  /** ASCII lower case of one character. */
  function LowerChar(ch: char): (r: char)
    ensures 'A' <= ch <= 'Z' ==> 'a' <= r <= 'z' && r as int - ch as int == 32
    ensures !('A' <= ch <= 'Z') ==> r == ch
  {
    if 'A' <= ch <= 'Z' then (ch as int + 32) as char else ch
  }

  predicate IsLower(s: string) {
    forall i :: 0 <= i < |s| ==> !('A' <= s[i] <= 'Z')
  }

  /** `to_lowercase`, restricted to ASCII letters. */
  function Lower(s: string): (r: string)
    ensures |r| == |s|
    ensures IsLower(r)
    ensures forall i :: 0 <= i < |s| ==> r[i] == LowerChar(s[i])
    ensures IsLower(s) ==> r == s
  {
    seq(|s|, i requires 0 <= i < |s| => LowerChar(s[i]))
  }

  // ---------------------------------------------------------------- setters

  /** The address `update_bind` falls back to. */
  const DefaultAddress: string := "127.0.0.1:8080"

  function UpdateLogLevel(c: Configuration, level: Option<U32>): (r: Configuration)
    ensures r.logLevel == level && AgreeExcept(c, r, LogLevel)
  {
    c.(logLevel := level)
  }

  function UpdateDbPath(c: Configuration, p: string): (r: Configuration)
    ensures r.dbPath == p && AgreeExcept(c, r, DbPath)
  {
    c.(dbPath := p)
  }

  function UpdateDbArcSize(c: Configuration, v: Option<nat>): (r: Configuration)
    ensures r.dbArcSize == v && AgreeExcept(c, r, DbArcSize)
  {
    c.(dbArcSize := v)
  }

  /** `update_db_fs_type`: the file-system type is stored in lower case. */
  function UpdateDbFsType(c: Configuration, p: Option<string>): (r: Configuration)
    ensures r.dbFsType.None? <==> p.None?
    ensures p.Some? ==> |r.dbFsType.value| == |p.value| && IsLower(r.dbFsType.value)
    ensures p.Some? ==> forall i :: 0 <= i < |p.value| ==> r.dbFsType.value[i] == LowerChar(p.value[i])
    ensures AgreeExcept(c, r, DbFsType)
  {
    c.(dbFsType := if p.Some? then Some(Lower(p.value)) else None)
  }

  /** `update_bind`: the given address, or the default one. */
  function UpdateBind(c: Configuration, b: Option<string>): (r: Configuration)
    ensures b.Some? ==> r.address == b.value
    ensures b.None? ==> r.address == DefaultAddress
    ensures AgreeExcept(c, r, Address)
  {
    c.(address := b.GetOr(DefaultAddress))
  }

  function UpdateLdapBind(c: Configuration, l: Option<string>): (r: Configuration)
    ensures r.ldapaddress == l && AgreeExcept(c, r, LdapAddress)
  {
    c.(ldapaddress := l)
  }

  function UpdateOrigin(c: Configuration, o: string): (r: Configuration)
    ensures r.origin == o && AgreeExcept(c, r, Origin)
  {
    c.(origin := o)
  }

  function UpdateRole(c: Configuration, role: ServerRole): (r: Configuration)
    ensures r.role == role && AgreeExcept(c, r, Role)
  {
    c.(role := role)
  }

  /** The only way `update_tls` fails: a chain without a key or a key without a chain.
      The source prints an error and ends the process there. */
  datatype ConfigError = InvalidTlsConfiguration

  /** `update_tls`: both paths or neither. */
  function UpdateTls(c: Configuration, chain: Option<string>, key: Option<string>): (r: Result<Configuration, ConfigError>)
    ensures r.Ok? <==> chain.Some? == key.Some?
    ensures r.Err? ==> r.error == InvalidTlsConfiguration
    ensures chain.None? && key.None? ==> r == Ok(c)
    ensures r.Ok? && chain.Some? ==> r.value.tlsConfig == Some(TlsConfiguration(chain.value, key.value))
    ensures r.Ok? ==> AgreeExcept(c, r.value, TlsConfig)
  {
    match (chain, key)
    case (None, None) => Ok(c)
    case (Some(ch), Some(k)) => Ok(c.(tlsConfig := Some(TlsConfiguration(ch, k))))
    case _ => Err(InvalidTlsConfiguration)
  }

  /** One call of a plain setter, with its argument. */
  datatype Setting =
    | SetLogLevel(level: Option<U32>)
    | SetDbPath(path: string)
    | SetDbArcSize(size: Option<nat>)
    | SetDbFsType(fsType: Option<string>)
    | SetBind(bind: Option<string>)
    | SetLdapBind(ldapBind: Option<string>)
    | SetOrigin(o: string)
    | SetRole(r: ServerRole)

  /** The field a setting writes. */
  function Target(st: Setting): Field {
    match st
    case SetLogLevel(_) => LogLevel
    case SetDbPath(_) => DbPath
    case SetDbArcSize(_) => DbArcSize
    case SetDbFsType(_) => DbFsType
    case SetBind(_) => Address
    case SetLdapBind(_) => LdapAddress
    case SetOrigin(_) => Origin
    case SetRole(_) => Role
  }

  /** Run a setting: each one changes its own field and nothing else. */
  function Apply(c: Configuration, st: Setting): (r: Configuration)
    ensures AgreeExcept(c, r, Target(st))
  {
    match st
    case SetLogLevel(l) => UpdateLogLevel(c, l)
    case SetDbPath(p) => UpdateDbPath(c, p)
    case SetDbArcSize(v) => UpdateDbArcSize(c, v)
    case SetDbFsType(p) => UpdateDbFsType(c, p)
    case SetBind(b) => UpdateBind(c, b)
    case SetLdapBind(l) => UpdateLdapBind(c, l)
    case SetOrigin(o) => UpdateOrigin(c, o)
    case SetRole(r) => UpdateRole(c, r)
  }

  /** What a setting stores in its field depends only on its argument. */
  lemma ApplyStores(c: Configuration, d: Configuration, st: Setting)
    ensures Same(Apply(c, st), Apply(d, st), Target(st))
  {
  }

  /** Holding the same value in a field is an equivalence. */
  lemma SameChain(p: Configuration, q: Configuration, r: Configuration, g: Field)
    requires Same(p, q, g) || Same(q, p, g)
    requires Same(q, r, g) || Same(r, q, g)
    ensures Same(p, r, g)
  {
  }

  /** Settings of different fields can be given in either order. */
  lemma SettingsCommute(c: Configuration, a: Setting, b: Setting)
    requires Target(a) != Target(b)
    ensures Apply(Apply(c, a), b) == Apply(Apply(c, b), a)
  {
    var ca, cb := Apply(c, a), Apply(c, b);
    var x, y := Apply(ca, b), Apply(cb, a);
    forall g: Field ensures Same(x, y, g) {
      if g == Target(a) {
        ApplyStores(c, cb, a);
        SameChain(x, ca, y, g);
      } else if g == Target(b) {
        ApplyStores(ca, c, b);
        SameChain(x, cb, y, g);
      } else {
        SameChain(x, ca, c, g);
        SameChain(c, cb, y, g);
        SameChain(x, c, y, g);
      }
    }
    SameEverywhere(x, y);
  }

  /** Of two settings of the same field, the later one wins. */
  lemma LastSettingWins(c: Configuration, a: Setting, b: Setting)
    requires Target(a) == Target(b)
    ensures Apply(Apply(c, a), b) == Apply(c, b)
  {
    var ca := Apply(c, a);
    var x, y := Apply(ca, b), Apply(c, b);
    forall g: Field ensures Same(x, y, g) {
      if g == Target(b) {
        ApplyStores(ca, c, b);
      } else {
        SameChain(x, ca, c, g);
        SameChain(x, c, y, g);
      }
    }
    SameEverywhere(x, y);
  }

  /** Storing a file-system type a second time changes nothing, and neither does
      storing the value already stored. */
  lemma DbFsTypeIdempotent(c: Configuration, p: Option<string>)
    ensures UpdateDbFsType(UpdateDbFsType(c, p), p) == UpdateDbFsType(c, p)
    ensures UpdateDbFsType(c, c.dbFsType) == c ||
      (c.dbFsType.Some? && !IsLower(c.dbFsType.value))
  {
    var r := UpdateDbFsType(c, p);
    if p.Some? {
      assert Lower(r.dbFsType.value) == r.dbFsType.value;
    }
  }

  // ---------------------------------------------------------------- rendering

  /** The digit for `d` in bases up to 16, lower case as `{:x}` writes it. */
  function DigitChar(d: nat): (ch: char)
    requires d < 16
    ensures DigitValue(ch) == d
  {
    if d < 10 then ('0' as int + d) as char else ('a' as int + d - 10) as char
  }

  function DigitValue(ch: char): nat {
    if '0' <= ch <= '9' then ch as int - '0' as int
    else if 'a' <= ch <= 'f' then ch as int - 'a' as int + 10
    else 0
  }

  /** `ch` is one of the first `base` digits. */
  predicate IsDigit(ch: char, base: nat) {
    DigitValue(ch) < base && DigitValue(ch) < 16 && DigitChar(DigitValue(ch)) == ch
  }

  /** Read a numeral back, most significant digit first. */
  function ParseDigits(s: string, base: nat): nat
    decreases |s|
  {
    if |s| == 0 then 0 else ParseDigits(s[..|s| - 1], base) * base + DigitValue(s[|s| - 1])
  }

  /** Reading a numeral with one more digit at the end. */
  lemma ParseSnoc(hi: string, ch: char, base: nat)
    ensures ParseDigits(hi + [ch], base) == ParseDigits(hi, base) * base + DigitValue(ch)
  {
    assert (hi + [ch])[..|hi + [ch]| - 1] == hi;
  }

  /** What makes `s` the numeral of `n` in `base`: digits of that base, no leading
      zero, and it reads back as `n`. */
  predicate IsNumeral(s: string, base: nat, n: nat) {
    && |s| >= 1 && (|s| > 1 ==> s[0] != '0')
    && (forall i :: 0 <= i < |s| ==> IsDigit(s[i], base))
    && ParseDigits(s, base) == n
  }

  /** A one-character numeral reads as its digit's value. */
  lemma SingleDigit(ch: char, base: nat)
    ensures ParseDigits([ch], base) == DigitValue(ch)
  {
    assert [ch][..0] == [];
  }

  /** A single digit is the numeral of a number below the base. */
  lemma OneDigit(n: nat, base: nat)
    requires 2 <= base <= 16 && n < base
    ensures IsNumeral([DigitChar(n)], base, n)
  {
    ParseSnoc([], DigitChar(n), base);
    assert [] + [DigitChar(n)] == [DigitChar(n)];
  }

  /** Appending the last digit to the numeral of `n / base` gives the numeral of `n`. */
  lemma NextDigit(n: nat, base: nat, hi: string)
    requires 2 <= base <= 16 && n >= base
    requires IsNumeral(hi, base, n / base)
    ensures IsNumeral(hi + [DigitChar(n % base)], base, n)
  {
    var lo := DigitChar(n % base);
    var s := hi + [lo];
    assert ParseDigits(s, base) == n by {
      ParseSnoc(hi, lo, base);
      DivMod(n, base);
    }
    assert |s| > 1 ==> s[0] != '0' by {
      assert s[0] == hi[0];
      if |hi| == 1 {
        assert hi == [hi[0]];
        SingleDigit(hi[0], base);
      }
    }
    assert forall i :: 0 <= i < |s| ==> IsDigit(s[i], base) by {
      assert forall i :: 0 <= i < |hi| ==> s[i] == hi[i];
    }
  }

  lemma DivMod(n: nat, base: nat)
    requires base > 0
    ensures (n / base) * base + n % base == n
  {
  }

  /** The numeral of `n` in `base`. */
  function Digits(n: nat, base: nat): (s: string)
    requires 2 <= base <= 16
    ensures IsNumeral(s, base, n)
    decreases n
  {
    if n < base then
      OneDigit(n, base);
      [DigitChar(n)]
    else
      var hi := Digits(n / base, base);
      NextDigit(n, base, hi);
      hi + [DigitChar(n % base)]
  }

  function Decimal(n: nat): string {
    Digits(n, 10)
  }

  function Hex(n: nat): string {
    Digits(n, 16)
  }

  function BoolText(b: bool): string {
    if b then "true" else "false"
  }

  /** `s` occurs in `t` at position `i`. */
  predicate At(s: string, t: string, i: int) {
    0 <= i <= |t| - |s| && t[i..i + |s|] == s
  }

  /** `s` occurs in `t` at some position. */
  ghost predicate Infix(s: string, t: string) {
    exists i :: At(s, t, i)
  }

  function Concat(parts: seq<string>): (r: string)
    decreases |parts|
  {
    if |parts| == 0 then [] else parts[0] + Concat(parts[1..])
  }

  /** Every part occurs in the concatenation. */
  lemma {:induction false} ConcatInfix(parts: seq<string>, k: nat)
    requires k < |parts|
    ensures Infix(parts[k], Concat(parts))
    decreases k
  {
    var t := Concat(parts);
    if k == 0 {
      assert At(parts[0], t, 0);
    } else {
      ConcatInfix(parts[1..], k - 1);
      var rest := Concat(parts[1..]);
      assert parts[1..][k - 1] == parts[k];
      var i :| At(parts[k], rest, i);
      var j := |parts[0]| + i;
      assert t[j..j + |parts[k]|] == rest[i..i + |parts[k]|];
      assert At(parts[k], t, j);
    }
  }

  /** The concatenation starts with the first part and ends with the last. */
  lemma {:induction false} ConcatEnds(parts: seq<string>)
    requires |parts| > 0
    ensures Concat(parts)[..|parts[0]|] == parts[0]
    ensures |Concat(parts)| >= |parts[|parts| - 1]|
    ensures Concat(parts)[|Concat(parts)| - |parts[|parts| - 1]|..] == parts[|parts| - 1]
    decreases |parts|
  {
    if |parts| > 1 {
      ConcatEnds(parts[1..]);
      assert parts[1..][|parts[1..]| - 1] == parts[|parts| - 1];
      var rest := Concat(parts[1..]);
      assert Concat(parts)[|Concat(parts)| - |parts[|parts| - 1]|..] == rest[|rest| - |parts[|parts| - 1]|..];
    }
  }

  /** The pieces `Display` writes, in order. */
  function DisplayParts(c: Configuration): seq<string> {
    [ "address: " + c.address + ", ",
      if c.ldapaddress.Some? then "ldap address: " + c.ldapaddress.value + ", " else "ldap address: disabled, ",
      "thread count: " + Decimal(c.threads) + ", ",
      "dbpath: " + c.dbPath + ", ",
      if c.dbArcSize.Some? then "arcsize: " + Decimal(c.dbArcSize.value) + ", " else "arcsize: AUTO, ",
      "max request size: " + Decimal(c.maximumRequest) + "b, ",
      "secure cookies: " + BoolText(c.secureCookies) + ", ",
      "with TLS: " + BoolText(c.tlsConfig.Some?) + ", ",
      if c.logLevel.Some? then "with log_level: " + Hex(c.logLevel.value) + ", " else "with log_level: default, ",
      "integration mode: " + BoolText(c.integrationTestConfig.Some?) ]
  }

  /** `fmt::Display for Configuration`. */
  function Display(c: Configuration): (s: string)
    ensures forall k :: 0 <= k < |DisplayParts(c)| ==> Infix(DisplayParts(c)[k], s)
  {
    var parts := DisplayParts(c);
    forall k | 0 <= k < |parts| ensures Infix(parts[k], Concat(parts)) {
      ConcatInfix(parts, k);
    }
    Concat(parts)
  }

  /** The rendering opens with the bound address. */
  lemma DisplayStartsWithAddress(c: Configuration)
    ensures |Display(c)| >= |"address: " + c.address + ", "|
    ensures Display(c)[..|"address: " + c.address + ", "|] == "address: " + c.address + ", "
  {
    ConcatEnds(DisplayParts(c));
  }

  /** The rendering closes with whether integration-test mode is on. */
  lemma DisplayEndsWithIntegrationMode(c: Configuration)
    ensures var tail := "integration mode: " + BoolText(c.integrationTestConfig.Some?);
      |Display(c)| >= |tail| && Display(c)[|Display(c)| - |tail|..] == tail
  {
    ConcatEnds(DisplayParts(c));
  }

  /** An absent LDAP address, arc size or log level is written as `disabled`, `AUTO`
      and `default`; a present one as its value (the numbers in decimal and in lower
      case hexadecimal respectively). */
  lemma DisplayOptionals(c: Configuration)
    ensures c.ldapaddress.None? ==> Infix("ldap address: disabled, ", Display(c))
    ensures c.ldapaddress.Some? ==> Infix("ldap address: " + c.ldapaddress.value + ", ", Display(c))
    ensures c.dbArcSize.None? ==> Infix("arcsize: AUTO, ", Display(c))
    ensures c.dbArcSize.Some? ==> Infix("arcsize: " + Decimal(c.dbArcSize.value) + ", ", Display(c))
    ensures c.logLevel.None? ==> Infix("with log_level: default, ", Display(c))
    ensures c.logLevel.Some? ==> Infix("with log_level: " + Hex(c.logLevel.value) + ", ", Display(c))
  {
    var parts := DisplayParts(c);
    assert Infix(parts[1], Display(c)) && Infix(parts[4], Display(c)) && Infix(parts[8], Display(c));
  }

  /** A successful `update_tls` with both paths shows up as TLS being on. */
  lemma TlsShownAfterUpdate(c: Configuration, chain: string, key: string)
    ensures UpdateTls(c, Some(chain), Some(key)).Ok?
    ensures Infix("with TLS: true, ", Display(UpdateTls(c, Some(chain), Some(key)).value))
  {
    var r := UpdateTls(c, Some(chain), Some(key)).value;
    assert DisplayParts(r)[7] == "with TLS: true, ";
    assert Infix(DisplayParts(r)[7], Display(r));
  }
}

=== FILE: entries.dfy ===
/** Entries of the directory: a storage id plus a map from attribute name to a set
    of values, and the handful of entry operations the SPN plugin relies on
    (`attribute_value_pres`, `get_ava_single`, `set_ava`, modlist application and
    `generate_spn`). The bodies of these live in `entry.rs`, which is not part of
    this model; they are defined here by the behaviour the plugin depends on. */
module Entries {
  import opened Wrappers

  type Attr = string

  /** An attribute value. Most attributes hold strings (class names, names, uuids,
      the domain name); a service principal name is a (name, domain) pair. */
  datatype Value = Str(s: string) | SpnValue(name: string, domain: string)

  /** An entry: its storage-local id and its attributes. An attribute that is absent
      and one that maps to the empty set read the same through `Vals`. */
  datatype Entry = Entry(id: nat, attrs: map<Attr, set<Value>>)

  /** The values an entry holds for an attribute (empty when it has none). */
  function Vals(e: Entry, a: Attr): set<Value> {
    if a in e.attrs then e.attrs[a] else {}
  }

  /** `attribute_value_pres`: the entry holds value `v` for attribute `a`. */
  predicate AttributeValuePres(e: Entry, a: Attr, v: Value) {
    v in Vals(e, a)
  }

  /** `get_ava_single`: the attribute's value when it holds exactly one, otherwise none
      (both for a missing and for a multi-valued attribute). */
  function GetAvaSingle(e: Entry, a: Attr): (r: Option<Value>)
    ensures r.Some? <==> |Vals(e, a)| == 1
    ensures r.Some? ==> Vals(e, a) == {r.value}
  {
    var s := Vals(e, a);
    if |s| == 1 then
      var v :| v in s;
      assert |s - {v}| == 0;
      assert s == {v};
      Some(v)
    else
      None
  }

  /** `set_ava`: replace every value of `a` by `vs`. */
  function SetAva(e: Entry, a: Attr, vs: set<Value>): (r: Entry)
    ensures r.id == e.id
    ensures Vals(r, a) == vs
    ensures forall b :: b != a ==> Vals(r, b) == Vals(e, b)
  {
    e.(attrs := e.attrs[a := vs])
  }

  /** One modification of a modlist (`m_pres`, `m_remove`, `m_purge`). */
  datatype Modify =
    | Present(attr: Attr, value: Value)
    | Removed(attr: Attr, value: Value)
    | Purged(attr: Attr)

  function ApplyModify(e: Entry, m: Modify): (r: Entry)
    ensures r.id == e.id
    ensures forall b :: b != m.attr ==> Vals(r, b) == Vals(e, b)
    ensures m.Present? ==> Vals(r, m.attr) == Vals(e, m.attr) + {m.value}
    ensures m.Removed? ==> Vals(r, m.attr) == Vals(e, m.attr) - {m.value}
    ensures m.Purged? ==> Vals(r, m.attr) == {}
  {
    match m
    case Present(a, v) => e.(attrs := e.attrs[a := Vals(e, a) + {v}])
    case Removed(a, v) => e.(attrs := e.attrs[a := Vals(e, a) - {v}])
    case Purged(a) => e.(attrs := e.attrs - {a})
  }

  /** Some modification of `ms` names attribute `a`. */
  predicate Mentions(ms: seq<Modify>, a: Attr) {
    exists k :: 0 <= k < |ms| && ms[k].attr == a
  }

  /** Apply a modlist to one entry, first modification first. */
  function ApplyModlist(e: Entry, ms: seq<Modify>): (r: Entry)
    ensures r.id == e.id
    ensures forall b :: !Mentions(ms, b) ==> Vals(r, b) == Vals(e, b)
    decreases |ms|
  {
    if |ms| == 0 then e
    else
      ApplyModlist(ApplyModify(e, ms[0]), ms[1..])
  }

  /** `get_ava_single_str("name")` succeeds: the entry has exactly one name, a string. */
  predicate HasName(e: Entry) {
    var n := GetAvaSingle(e, "name");
    n.Some? && n.value.Str?
  }

  function NameOf(e: Entry): string
    requires HasName(e)
  {
    GetAvaSingle(e, "name").value.s
  }

  /** `generate_spn`: the entry's principal name in `domain`, built from its single
      `name`; none when the name is missing or not single-valued. */
  function GenerateSpn(e: Entry, domain: string): (r: Option<Value>)
    ensures r.Some? <==> HasName(e)
    ensures r.Some? ==> r.value == SpnValue(NameOf(e), domain)
  {
    match GetAvaSingle(e, "name")
    case Some(Str(n)) => Some(SpnValue(n, domain))
    case _ => None
  }
}

=== FILE: proto.dfy ===
/** The error values the SPN plugin reports, as declared by the protocol crate
    (`kanidm_proto::v1`). Only the variants this core produces are listed. */
module Proto {

  /** Errors that abort a write transaction. */
  datatype OperationError =
    | InvalidEntryState   // a required attribute (name, domain_name) is missing or not single-valued
    | NoMatchingEntries   // an internal search by uuid found nothing

  /** Findings of the read-only consistency audit. */
  datatype ConsistencyError =
    | QueryServerSearchFailure  // the audit could not read what it needs to check
    | InvalidSpn(id: nat)       // the entry with this storage id has a missing or wrong spn
}

=== FILE: scenarios.dfy ===
/** The situations the plugin's own test cases set up, replayed on the model: a
    created account that arrives with a forged SPN, and the administrator's SPN
    following a domain rename. */
module Scenarios {
  import opened Wrappers
  import opened Entries
  import opened Store
  import opened Spn
  import opened Server

  /** The domain-info entry of a fresh server, named `example.com`. */
  const DomainInfo: Entry :=
    Entry(0, map["uuid" := {Str(DomainInfoUuid)}, "class" := {Str("domain_info")},
                 "domain_name" := {Str("example.com")}])

  /** The account a client asks to create, carrying an SPN in a domain that is not
      this one. */
  const ForgedPerson: Entry :=
    Entry(1, map["class" := {Str("account")}, "name" := {Str("testperson")},
                 "spn" := {SpnValue("testperson", "invalid_domain.com")},
                 "description" := {Str("testperson")}, "displayname" := {Str("testperson")}])

  /** The built-in administrator with its SPN in the initial domain. */
  const Admin: Entry :=
    Entry(1, map["class" := {Str("account")}, "name" := {Str("admin")},
                 "spn" := {SpnValue("admin", "example.com")}])

  lemma DomainInfoFacts()
    ensures IsDomainInfo(DomainInfo) && !IsSpnTarget(DomainInfo)
    ensures GetAvaSingle(DomainInfo, "domain_name") == Some(Str("example.com"))
  {
    assert Vals(DomainInfo, "class") == {Str("domain_info")};
    assert Vals(DomainInfo, "domain_name") == {Str("example.com")};
  }

  /** The created account holds the SPN of this domain, not the one it was sent with. */
  lemma ForgedSpnIsReplaced()
    ensures Create([DomainInfo], [ForgedPerson]).Ok?
    ensures Vals(Create([DomainInfo], [ForgedPerson]).value[1], "spn") == {SpnValue("testperson", "example.com")}
  {
    DomainInfoFacts();
    assert FirstIndex([DomainInfo], IsDomainInfo) == Some(0);
    assert GetDomainName([DomainInfo]) == Ok("example.com");
    assert IsSpnTarget(ForgedPerson);
    assert Vals(ForgedPerson, "name") == {Str("testperson")};
    assert GetAvaSingle(ForgedPerson, "name") == Some(Str("testperson"));
    assert HasName(ForgedPerson) && NameOf(ForgedPerson) == "testperson";
    assert IsSpnTarget([ForgedPerson][0]);
  }

  /** Renaming the domain to `new.example.com` moves the administrator's SPN from
      `admin@example.com` to `admin@new.example.com`. */
  lemma AdminSpnFollowsRename()
    ensures DomainRename([DomainInfo, Admin], "new.example.com").Ok?
    ensures Vals(DomainRename([DomainInfo, Admin], "new.example.com").value[1], "spn") ==
      {SpnValue("admin", "new.example.com")}
  {
    var s := [DomainInfo, Admin];
    var name := "new.example.com";
    DomainInfoFacts();
    assert Vals(Admin, "name") == {Str("admin")};
    assert GetAvaSingle(Admin, "name") == Some(Str("admin"));
    assert IsSpnTarget(Admin) && HasName(Admin) && !IsDomainInfo(Admin);
    assert DistinctIds(s);
    assert FirstIndex(s, IsDomainInfo) == Some(0);
    assert GetDomainName(s) == Ok("example.com");
    assert GetDomainName(s) != Ok(name) by {
      assert |"example.com"| != |name|;
    }
    RenameSucceeds(s, name);
    RenameRegeneratesEverySpn(s, name);
    var r := DomainRename(s, name).value;
    RenameLeavesUuid(name);
    ModifyFrame(s, IsDomainInfo, RenameMods(name), 1);
    assert Vals(r[1], "class") == Vals(Admin, "class");
    assert Vals(r[1], "name") == Vals(Admin, "name");
    assert GetAvaSingle(r[1], "name") == Some(Str("admin"));
    assert Consistent(r[1], name);
  }
}

=== FILE: server.dfy ===
/** The write paths of the query server as far as the SPN plugin takes part in them
    (with `plugin_spn` as the only plugin), the domain rename that triggers its
    cascade, and the invariant they keep: every account and group of the store holds
    exactly the SPN generated from its name and the current domain name. */
module Server {
  import opened Wrappers
  import opened Entries
  import opened Proto
  import opened Store
  import opened Spn

  /** The invariant the plugin maintains. It constrains nothing while the domain name
      cannot be read, since no SPN can be generated then. */
  predicate SpnInvariant(s: Store) {
    GetDomainName(s).Ok? ==> AllConsistent(s, GetDomainName(s).value)
  }

  /** `modify`: the internal modify (search, modlist, `pre_modify`, write-back)
      followed by `post_modify` on the (pre, post) pairs it produced. */
  function ModifyStore(s: Store, f: Entry -> bool, ms: seq<Modify>): (r: Result<Store, OperationError>)
  {
    var a :- InternalModify(s, f, ms);
    PostModify(a.store, a.pre, a.post)
  }

  /** A candidate that went through a modlist leaving `uuid` alone and then through
      the pre-hook: apart from `spn` it is the modlist's result, it is the domain-info
      entry exactly when it was before, and as an account or group it holds the SPN
      generated from its own name. */
  lemma ModlistThenStamped(x: Entry, ms: seq<Modify>, c: Entry, y: Entry, lookup: Result<string, OperationError>)
    requires !Mentions(ms, "uuid")
    requires c == ApplyModlist(x, ms)
    requires forall b :: b != "spn" ==> Vals(y, b) == Vals(c, b)
    requires IsSpnTarget(c) ==>
      (lookup.Ok? && HasName(c) && Vals(y, "spn") == {SpnValue(NameOf(c), lookup.value)})
    ensures IsDomainInfo(y) <==> IsDomainInfo(x)
    ensures IsSpnTarget(y) ==> lookup.Ok? && Consistent(y, lookup.value)
  {
    assert Vals(y, "uuid") == Vals(x, "uuid");
    assert Vals(y, "class") == Vals(c, "class");
    assert GetAvaSingle(y, "name") == GetAvaSingle(c, "name");
  }

  /** A successful modify is a successful internal modify followed by a successful
      `post_modify`. */
  lemma ModifyParts(s: Store, f: Entry -> bool, ms: seq<Modify>) returns (a: Applied)
    requires ModifyStore(s, f, ms).Ok?
    ensures InternalModify(s, f, ms) == Ok(a)
    ensures PostModify(a.store, a.pre, a.post) == ModifyStore(s, f, ms)
  {
    a := InternalModify(s, f, ms).value;
  }

  /** The guarantees of a successful `post_modify` that reacts to a rename. */
  lemma PostModifyRepairs(s: Store, pre: seq<Entry>, post: seq<Entry>, r: Store)
    requires PostModify(s, pre, post) == Ok(r)
    requires DistinctIds(s)
    requires GetDomainName(s).Ok?
    requires DomainNameChange(post, pre).Some?
    ensures GetDomainName(r) == GetDomainName(s)
    ensures AllConsistent(r, GetDomainName(s).value)
  {
  }

  /** A matched entry after a successful internal modify whose modlist leaves `uuid`
      alone: apart from `spn` it is the modlist's result, it is the domain-info entry
      exactly when it was before, and as an account or group it holds the SPN for the
      store's domain name. */
  lemma ModifiedMatch(s: Store, f: Entry -> bool, ms: seq<Modify>, a: Applied, x: Entry, y: Entry)
    requires InternalModify(s, f, ms) == Ok(a)
    requires !Mentions(ms, "uuid")
    requires exists j :: 0 <= j < |a.pre| && a.pre[j] == x && a.post[j] == y
    ensures forall b :: b != "spn" ==> Vals(y, b) == Vals(ApplyModlist(x, ms), b)
    ensures !IsSpnTarget(ApplyModlist(x, ms)) ==> y == ApplyModlist(x, ms)
    ensures IsDomainInfo(y) <==> IsDomainInfo(x)
    ensures IsSpnTarget(y) ==> GetDomainName(s).Ok? && Consistent(y, GetDomainName(s).value)
  {
    InternalModifyParts(s, f, ms);
    var j :| 0 <= j < |a.pre| && a.pre[j] == x && a.post[j] == y;
    var cand := ApplyAll(a.pre, ms);
    RegenerateAt(GetDomainName(s), cand, a.post, j);
    ModlistThenStamped(x, ms, cand[j], y, GetDomainName(s));
  }

  /** Entry `i` after a successful internal modify whose modlist leaves `uuid` alone. */
  lemma ModifiedAt(s: Store, f: Entry -> bool, ms: seq<Modify>, a: Applied, i: nat)
    requires DistinctIds(s)
    requires InternalModify(s, f, ms) == Ok(a)
    requires !Mentions(ms, "uuid")
    requires i < |s|
    ensures i < |a.store|
    ensures !f(s[i]) ==> a.store[i] == s[i]
    ensures f(s[i]) ==> exists j :: 0 <= j < |a.pre| && a.pre[j] == s[i] && a.store[i] == a.post[j]
    ensures f(s[i]) ==>
      forall b :: b != "spn" ==> Vals(a.store[i], b) == Vals(ApplyModlist(s[i], ms), b)
    ensures f(s[i]) && !IsSpnTarget(ApplyModlist(s[i], ms)) ==> a.store[i] == ApplyModlist(s[i], ms)
    ensures IsDomainInfo(a.store[i]) <==> IsDomainInfo(s[i])
    ensures f(s[i]) && IsSpnTarget(a.store[i]) ==>
      GetDomainName(s).Ok? && Consistent(a.store[i], GetDomainName(s).value)
  {
    InternalModifyPointwise(s, f, ms);
    if f(s[i]) {
      ModifiedMatch(s, f, ms, a, s[i], a.store[i]);
    }
  }

  /** A modify that renames nothing keeps the invariant: modified accounts and groups
      were stamped with the unchanged domain name, the others were right already. */
  lemma NoRenameKeepsInvariant(s: Store, f: Entry -> bool, ms: seq<Modify>, a: Applied)
    requires DistinctIds(s) && SpnInvariant(s)
    requires InternalModify(s, f, ms) == Ok(a)
    requires !Mentions(ms, "uuid")
    requires DomainNameChange(a.post, a.pre).None?
    ensures SpnInvariant(a.store)
  {
    NoRenameKeepsName(s, f, ms, a);
    if GetDomainName(a.store).Ok? {
      forall i | 0 <= i < |a.store| && IsSpnTarget(a.store[i])
        ensures Consistent(a.store[i], GetDomainName(a.store).value)
      {
        ModifiedAt(s, f, ms, a, i);
      }
    }
  }

  /** Without a rename, whatever domain name the modified store answers is the one the
      store answered before. */
  lemma NoRenameKeepsName(s: Store, f: Entry -> bool, ms: seq<Modify>, a: Applied)
    requires DistinctIds(s)
    requires InternalModify(s, f, ms) == Ok(a)
    requires !Mentions(ms, "uuid")
    requires DomainNameChange(a.post, a.pre).None?
    ensures GetDomainName(a.store).Ok? ==> GetDomainName(a.store) == GetDomainName(s)
  {
    forall i | 0 <= i < |s|
      ensures IsDomainInfo(s[i]) <==> IsDomainInfo(a.store[i])
      ensures IsDomainInfo(a.store[i]) && GetAvaSingle(a.store[i], "domain_name").Some? ==>
        GetAvaSingle(a.store[i], "domain_name") == GetAvaSingle(s[i], "domain_name")
    {
      ModifiedAt(s, f, ms, a, i);
      if f(s[i]) {
        var j :| 0 <= j < |a.pre| && a.pre[j] == s[i] && a.store[i] == a.post[j];
        assert !Triggers(a.post[j], a.pre[j]);
      }
    }
    DomainNameKept(s, a.store);
  }

  /** Nothing but `spn` changes beyond what the modlist asks for: an unmatched entry
      keeps every other attribute, a matched one holds the modlist's result in them.
      An entry that is neither account nor group (after the modlist, when matched)
      is not touched by the plugin at all, `spn` included. */
  lemma ModifyFrame(s: Store, f: Entry -> bool, ms: seq<Modify>, i: nat)
    requires DistinctIds(s)
    requires !Mentions(ms, "uuid")
    requires ModifyStore(s, f, ms).Ok?
    requires i < |s|
    ensures i < |ModifyStore(s, f, ms).value| && ModifyStore(s, f, ms).value[i].id == s[i].id
    ensures !f(s[i]) ==> forall b :: b != "spn" ==> Vals(ModifyStore(s, f, ms).value[i], b) == Vals(s[i], b)
    ensures f(s[i]) ==>
      forall b :: b != "spn" ==> Vals(ModifyStore(s, f, ms).value[i], b) == Vals(ApplyModlist(s[i], ms), b)
    ensures !f(s[i]) && !IsSpnTarget(s[i]) ==> ModifyStore(s, f, ms).value[i] == s[i]
    ensures f(s[i]) && !IsSpnTarget(ApplyModlist(s[i], ms)) ==>
      ModifyStore(s, f, ms).value[i] == ApplyModlist(s[i], ms)
  {
    var a := ModifyParts(s, f, ms);
    var r := ModifyStore(s, f, ms).value;
    IdsKept(s, a.store);
    ModifiedAt(s, f, ms, a, i);
    PostModifyKeeps(a.store, a.pre, a.post, r);
  }

  /** Whatever a modify's modlist does to `spn`, every account or group it matched
      leaves holding exactly the SPN for the domain name the store then answers: a
      purged, removed or client-supplied value never survives. */
  lemma ModifyRegeneratesMatched(s: Store, f: Entry -> bool, ms: seq<Modify>, i: nat)
    requires DistinctIds(s)
    requires !Mentions(ms, "uuid")
    requires ModifyStore(s, f, ms).Ok?
    requires i < |s| && f(s[i])
    ensures i < |ModifyStore(s, f, ms).value|
    ensures var r := ModifyStore(s, f, ms).value;
      IsSpnTarget(r[i]) && GetDomainName(r).Ok? ==> Consistent(r[i], GetDomainName(r).value)
  {
    var a := ModifyParts(s, f, ms);
    var r := ModifyStore(s, f, ms).value;
    IdsKept(s, a.store);
    ModifiedAt(s, f, ms, a, i);
    if DomainNameChange(a.post, a.pre).None? {
      NoRenameKeepsName(s, f, ms, a);
    } else if GetDomainName(r).Ok? {
      PostModifyKeeps(a.store, a.pre, a.post, r);
    }
  }

  /** Any successful modify whose modlist leaves `uuid` alone keeps storage ids
      distinct and keeps every account's and group's SPN right. */
  lemma ModifyKeepsSpnInvariant(s: Store, f: Entry -> bool, ms: seq<Modify>)
    requires DistinctIds(s) && SpnInvariant(s)
    requires !Mentions(ms, "uuid")
    requires ModifyStore(s, f, ms).Ok?
    ensures DistinctIds(ModifyStore(s, f, ms).value)
    ensures SpnInvariant(ModifyStore(s, f, ms).value)
  {
    var a := InternalModify(s, f, ms).value;
    var r := ModifyStore(s, f, ms).value;
    assert PostModify(a.store, a.pre, a.post) == Ok(r);
    assert DistinctIds(a.store) by {
      forall x, y | 0 <= x < y < |a.store| ensures a.store[x].id != a.store[y].id {
        assert a.store[x].id == s[x].id && a.store[y].id == s[y].id;
      }
    }
    assert DistinctIds(r) by {
      forall x, y | 0 <= x < y < |r| ensures r[x].id != r[y].id {
        assert r[x].id == s[x].id && r[y].id == s[y].id;
      }
    }
    if DomainNameChange(a.post, a.pre).None? {
      NoRenameKeepsInvariant(s, f, ms, a);
    }
  }

  /** The modlist of a domain rename: replace `domain_name` by the new name. */
  function RenameMods(name: string): seq<Modify> {
    [Purged("domain_name"), Present("domain_name", Str(name))]
  }

  /** The rename's modlist does not touch `uuid`. */
  lemma RenameLeavesUuid(name: string)
    ensures !Mentions(RenameMods(name), "uuid")
  {
    var ms := RenameMods(name);
    forall k | 0 <= k < |ms| ensures ms[k].attr != "uuid" {
      assert ms[k].attr == "domain_name";
    }
  }

  /** Replacing `domain_name` leaves it holding exactly the new name, touches nothing
      else, and changes nothing at all when that was already its only value. */
  lemma ReplaceDomainName(x: Entry, name: string)
    ensures Vals(ApplyModlist(x, RenameMods(name)), "domain_name") == {Str(name)}
    ensures forall b :: b != "domain_name" ==> Vals(ApplyModlist(x, RenameMods(name)), b) == Vals(x, b)
    ensures Vals(x, "domain_name") == {Str(name)} ==> ApplyModlist(x, RenameMods(name)) == x
  {
    var ms := RenameMods(name);
    var y := ApplyModify(x, ms[0]);
    assert ms[1..] == [ms[1]];
    assert ApplyModlist(x, ms) == ApplyModlist(y, [ms[1]]);
    assert ApplyModlist(y, [ms[1]]) == ApplyModlist(ApplyModify(y, ms[1]), []);
    if Vals(x, "domain_name") == {Str(name)} {
      assert ApplyModify(y, ms[1]).attrs == x.attrs;
    }
  }

  /** `domain_rename`: one internal modify of the domain-info entry that replaces its
      `domain_name`. */
  function DomainRename(s: Store, name: string): Result<Store, OperationError> {
    ModifyStore(s, IsDomainInfo, RenameMods(name))
  }

  /** Storage ids are kept position by position, so they stay distinct. */
  lemma IdsKept(s: Store, t: Store)
    requires DistinctIds(s)
    requires |t| == |s|
    requires forall i :: 0 <= i < |s| ==> t[i].id == s[i].id
    ensures DistinctIds(t)
  {
    forall x, y | 0 <= x < y < |t| ensures t[x].id != t[y].id {
      assert t[x].id == s[x].id && t[y].id == s[y].id;
    }
  }

  /** An entry that agrees with the renamed `x` everywhere but on `spn`. */
  lemma RenamedEntry(x: Entry, y: Entry, name: string)
    requires forall b :: b != "spn" ==> Vals(y, b) == Vals(ApplyModlist(x, RenameMods(name)), b)
    ensures Vals(y, "domain_name") == {Str(name)}
    ensures Vals(y, "class") == Vals(x, "class")
    ensures Vals(y, "uuid") == Vals(x, "uuid")
  {
    ReplaceDomainName(x, name);
    assert Vals(y, "domain_name") == Vals(ApplyModlist(x, RenameMods(name)), "domain_name");
    assert Vals(y, "class") == Vals(ApplyModlist(x, RenameMods(name)), "class");
    assert Vals(y, "uuid") == Vals(ApplyModlist(x, RenameMods(name)), "uuid");
  }

  /** Entry `i` after the rename's internal modify. */
  lemma RenamedAt(s: Store, name: string, a: Applied, i: nat)
    requires DistinctIds(s)
    requires InternalModify(s, IsDomainInfo, RenameMods(name)) == Ok(a)
    requires i < |s|
    ensures i < |a.store|
    ensures IsDomainInfo(a.store[i]) <==> IsDomainInfo(s[i])
    ensures IsDomainInfo(s[i]) ==>
      Vals(a.store[i], "domain_name") == {Str(name)} && IsSpnTarget(a.store[i]) == IsSpnTarget(s[i])
  {
    RenameLeavesUuid(name);
    ModifiedAt(s, IsDomainInfo, RenameMods(name), a, i);
    if IsDomainInfo(s[i]) {
      RenamedEntry(s[i], a.store[i], name);
    }
  }

  /** The store after the rename's internal modify: the domain-info entries are the
      same positions as before and each now holds exactly the new name. */
  lemma RenamedStore(s: Store, name: string, a: Applied)
    requires DistinctIds(s)
    requires InternalModify(s, IsDomainInfo, RenameMods(name)) == Ok(a)
    ensures DistinctIds(a.store)
    ensures forall i :: 0 <= i < |s| ==> (IsDomainInfo(a.store[i]) <==> IsDomainInfo(s[i]))
    ensures forall i :: 0 <= i < |s| && IsDomainInfo(s[i]) ==>
      Vals(a.store[i], "domain_name") == {Str(name)} && IsSpnTarget(a.store[i]) == IsSpnTarget(s[i])
    ensures forall i :: 0 <= i < |s| && IsDomainInfo(s[i]) ==>
      exists j :: 0 <= j < |a.pre| && a.pre[j] == s[i] && a.store[i] == a.post[j]
  {
    IdsKept(s, a.store);
    forall i | 0 <= i < |s|
      ensures IsDomainInfo(a.store[i]) <==> IsDomainInfo(s[i])
      ensures IsDomainInfo(s[i]) ==>
        Vals(a.store[i], "domain_name") == {Str(name)} && IsSpnTarget(a.store[i]) == IsSpnTarget(s[i])
    {
      RenamedAt(s, name, a, i);
    }
    InternalModifyPointwise(s, IsDomainInfo, RenameMods(name));
  }

  /** A store whose domain-info entries all hold exactly `name` answers `name`. */
  lemma DomainNameIs(t: Store, name: string)
    requires exists k :: 0 <= k < |t| && IsDomainInfo(t[k])
    requires forall i :: 0 <= i < |t| && IsDomainInfo(t[i]) ==> Vals(t[i], "domain_name") == {Str(name)}
    ensures GetDomainName(t) == Ok(name)
  {
    var k := FirstIndex(t, IsDomainInfo).value;
    assert GetAvaSingle(t[k], "domain_name") == Some(Str(name));
  }

  /** The rename's internal modify, run on a store whose domain name is not already
      `name`, produces a (post, pre) pair that `post_modify` reacts to. */
  lemma RenameTriggers(s: Store, name: string, a: Applied)
    requires DistinctIds(s)
    requires exists k :: 0 <= k < |s| && IsDomainInfo(s[k])
    requires GetDomainName(s) != Ok(name)
    requires InternalModify(s, IsDomainInfo, RenameMods(name)) == Ok(a)
    ensures DomainNameChange(a.post, a.pre).Some?
  {
    var k := OtherDomainName(s, name);
    RenameLeavesUuid(name);
    ModifiedAt(s, IsDomainInfo, RenameMods(name), a, k);
    var j :| 0 <= j < |a.pre| && a.pre[j] == s[k] && a.store[k] == a.post[j];
    RenamedPairTriggers(s[k], a.post[j], name);
    ChangeDetected(a.post, a.pre, j);
  }

  /** When the store does not answer `name`, its first domain-info entry does not
      hold `name` alone. */
  lemma OtherDomainName(s: Store, name: string) returns (k: nat)
    requires exists k :: 0 <= k < |s| && IsDomainInfo(s[k])
    requires GetDomainName(s) != Ok(name)
    ensures k < |s| && IsDomainInfo(s[k])
    ensures GetAvaSingle(s[k], "domain_name") != Some(Str(name))
  {
    k := FirstIndex(s, IsDomainInfo).value;
  }

  /** The domain-info entry before and after its `domain_name` was replaced by a
      value it did not hold alone: the pair triggers `post_modify`. */
  lemma RenamedPairTriggers(x: Entry, y: Entry, name: string)
    requires IsDomainInfo(x)
    requires GetAvaSingle(x, "domain_name") != Some(Str(name))
    requires forall b :: b != "spn" ==> Vals(y, b) == Vals(ApplyModlist(x, RenameMods(name)), b)
    ensures Triggers(y, x)
  {
    RenamedEntry(x, y, name);
  }

  /** One triggering pair is enough for `post_modify` to see a change. */
  lemma ChangeDetected(post: seq<Entry>, pre: seq<Entry>, j: nat)
    requires j < |post| && j < |pre| && Triggers(post[j], pre[j])
    ensures DomainNameChange(post, pre).Some?
  {
  }

  /** Renaming the domain to a new name regenerates every account's and group's SPN
      with it, whatever state they were in before. */
  lemma RenameRegeneratesEverySpn(s: Store, name: string)
    requires DistinctIds(s)
    requires exists k :: 0 <= k < |s| && IsDomainInfo(s[k])
    requires GetDomainName(s) != Ok(name)
    requires DomainRename(s, name).Ok?
    ensures GetDomainName(DomainRename(s, name).value) == Ok(name)
    ensures AllConsistent(DomainRename(s, name).value, name)
  {
    var a := ModifyParts(s, IsDomainInfo, RenameMods(name));
    RenameOutcome(s, name, a);
    PostModifyRepairs(a.store, a.pre, a.post, DomainRename(s, name).value);
  }

  /** The rename's internal modify, on a store with a domain-info entry whose name is
      not already `name`: ids stay distinct, the store now answers `name`, and
      `post_modify` will react. */
  lemma RenameOutcome(s: Store, name: string, a: Applied)
    requires DistinctIds(s)
    requires exists k :: 0 <= k < |s| && IsDomainInfo(s[k])
    requires GetDomainName(s) != Ok(name)
    requires InternalModify(s, IsDomainInfo, RenameMods(name)) == Ok(a)
    ensures DistinctIds(a.store)
    ensures GetDomainName(a.store) == Ok(name)
    ensures DomainNameChange(a.post, a.pre).Some?
  {
    RenamedStore(s, name, a);
    assert |a.store| == |s|;
    var k :| 0 <= k < |s| && IsDomainInfo(s[k]);
    assert IsDomainInfo(a.store[k]);
    forall i | 0 <= i < |a.store| && IsDomainInfo(a.store[i])
      ensures Vals(a.store[i], "domain_name") == {Str(name)}
    {
      assert IsDomainInfo(s[i]);
    }
    DomainNameIs(a.store, name);
    RenameTriggers(s, name, a);
  }


  /** Renaming the domain to the name it already has changes nothing, provided the
      domain-info entries are not accounts or groups. */
  lemma RenameToCurrentNameIsNoOp(s: Store, name: string)
    requires DistinctIds(s)
    requires forall i :: 0 <= i < |s| && IsDomainInfo(s[i]) ==>
      Vals(s[i], "domain_name") == {Str(name)} && !IsSpnTarget(s[i])
    ensures DomainRename(s, name) == Ok(s)
  {
    var ms := RenameMods(name);
    var pre := Search(s, IsDomainInfo);
    var cand := ApplyAll(pre, ms);
    forall j | 0 <= j < |pre| ensures cand[j] == pre[j] && !IsSpnTarget(pre[j]) {
      ReplaceDomainName(pre[j], name);
      assert pre[j] in s;
    }
    assert cand == pre;
    assert Regenerate(GetDomainName(s), cand) == Ok(pre);
    PersistSearched(s, IsDomainInfo, pre, pre);
    assert Persist(s, pre) == s;
    assert InternalModify(s, IsDomainInfo, ms) == Ok(Applied(s, pre, pre));
    assert DomainNameChange(pre, pre).None?;
  }

  /** What a successful `post_modify` keeps, whatever it did. */
  lemma PostModifyKeeps(s: Store, pre: seq<Entry>, post: seq<Entry>, r: Store)
    requires PostModify(s, pre, post) == Ok(r)
    requires DistinctIds(s)
    ensures DistinctIds(r)
    ensures |r| == |s|
    ensures forall i, b :: 0 <= i < |s| && b != "spn" ==> Vals(r[i], b) == Vals(s[i], b)
    ensures forall i :: 0 <= i < |s| && !IsSpnTarget(s[i]) ==> r[i] == s[i]
  {
    IdsKept(s, r);
  }

  /** Two entries that differ at most in `spn` agree on being the domain-info entry,
      on being an account or group, and on `domain_name`. */
  lemma SpnOnlyChanged(x: Entry, y: Entry)
    requires forall b :: b != "spn" ==> Vals(y, b) == Vals(x, b)
    ensures IsDomainInfo(y) == IsDomainInfo(x)
    ensures IsSpnTarget(y) == IsSpnTarget(x)
    ensures Vals(y, "domain_name") == Vals(x, "domain_name")
  {
    assert Vals(y, "uuid") == Vals(x, "uuid");
    assert Vals(y, "class") == Vals(x, "class");
  }

  /** After a rename every domain-info entry holds exactly the new name, and none has
      become an account or group. */
  lemma RenamedResult(s: Store, name: string, a: Applied, r: Store)
    requires DistinctIds(s)
    requires forall i :: 0 <= i < |s| && IsDomainInfo(s[i]) ==> !IsSpnTarget(s[i])
    requires InternalModify(s, IsDomainInfo, RenameMods(name)) == Ok(a)
    requires PostModify(a.store, a.pre, a.post) == Ok(r)
    ensures DistinctIds(r)
    ensures forall i :: 0 <= i < |r| && IsDomainInfo(r[i]) ==>
      Vals(r[i], "domain_name") == {Str(name)} && !IsSpnTarget(r[i])
  {
    RenamedStore(s, name, a);
    assert |a.store| == |s|;
    PostModifyKeeps(a.store, a.pre, a.post, r);
    forall i | 0 <= i < |r| && IsDomainInfo(r[i])
      ensures Vals(r[i], "domain_name") == {Str(name)} && !IsSpnTarget(r[i])
    {
      SpnOnlyChanged(a.store[i], r[i]);
      assert IsDomainInfo(s[i]);
    }
  }

  /** Running the same rename twice: the second run changes nothing. */
  lemma RenameIsIdempotent(s: Store, name: string)
    requires DistinctIds(s)
    requires forall i :: 0 <= i < |s| && IsDomainInfo(s[i]) ==> !IsSpnTarget(s[i])
    requires DomainRename(s, name).Ok?
    ensures DomainRename(DomainRename(s, name).value, name) == DomainRename(s, name)
  {
    var a := ModifyParts(s, IsDomainInfo, RenameMods(name));
    var r := DomainRename(s, name).value;
    RenamedResult(s, name, a, r);
    RenameToCurrentNameIsNoOp(r, name);
  }

  /** The rename's own internal modify cannot fail when the domain-info entries are
      not accounts or groups: its pre-hook then has no target. */
  lemma RenameFirstStepOk(s: Store, name: string)
    requires forall i :: 0 <= i < |s| && IsDomainInfo(s[i]) ==> !IsSpnTarget(s[i])
    ensures InternalModify(s, IsDomainInfo, RenameMods(name)).Ok?
  {
    var pre := Search(s, IsDomainInfo);
    var cand := ApplyAll(pre, RenameMods(name));
    forall j | 0 <= j < |cand| ensures !IsSpnTarget(cand[j]) {
      assert pre[j] in s;
      ReplaceDomainName(pre[j], name);
      assert Vals(cand[j], "class") == Vals(pre[j], "class");
    }
    assert !HasTarget(cand);
  }

  /** The cascade cannot fail on a store that answers a domain name and whose
      accounts and groups all have a single name. */
  lemma CascadeOk(t: Store)
    requires GetDomainName(t).Ok?
    requires forall i :: 0 <= i < |t| && IsSpnTarget(t[i]) ==> HasName(t[i])
    ensures InternalModify(t, IsSpnTarget, [Purged("spn")]).Ok?
  {
    var pre := Search(t, IsSpnTarget);
    var cand := ApplyAll(pre, [Purged("spn")]);
    forall j | 0 <= j < |cand| && IsSpnTarget(cand[j]) ensures HasName(cand[j]) {
      assert pre[j] in t;
      PurgeSpnKeeps(pre[j], "name");
      assert GetAvaSingle(cand[j], "name") == GetAvaSingle(pre[j], "name");
    }
  }

  /** After the rename's internal modify every account and group still has a name. */
  lemma RenamedKeepsNames(s: Store, name: string, a: Applied)
    requires DistinctIds(s)
    requires forall i :: 0 <= i < |s| && IsDomainInfo(s[i]) ==> !IsSpnTarget(s[i])
    requires forall i :: 0 <= i < |s| && IsSpnTarget(s[i]) ==> HasName(s[i])
    requires InternalModify(s, IsDomainInfo, RenameMods(name)) == Ok(a)
    ensures forall i :: 0 <= i < |a.store| && IsSpnTarget(a.store[i]) ==> HasName(a.store[i])
  {
    forall i | 0 <= i < |a.store| && IsSpnTarget(a.store[i]) ensures HasName(a.store[i]) {
      RenameLeavesUuid(name);
      ModifiedAt(s, IsDomainInfo, RenameMods(name), a, i);
      RenamedAt(s, name, a, i);
    }
  }

  /** A rename succeeds on a store with a domain-info entry that is not an account or
      group, when every account and group has a single name. */
  lemma RenameSucceeds(s: Store, name: string)
    requires DistinctIds(s)
    requires exists k :: 0 <= k < |s| && IsDomainInfo(s[k])
    requires forall i :: 0 <= i < |s| && IsDomainInfo(s[i]) ==> !IsSpnTarget(s[i])
    requires forall i :: 0 <= i < |s| && IsSpnTarget(s[i]) ==> HasName(s[i])
    ensures DomainRename(s, name).Ok?
  {
    RenameFirstStepOk(s, name);
    var a := InternalModify(s, IsDomainInfo, RenameMods(name)).value;
    assert DomainRename(s, name) == PostModify(a.store, a.pre, a.post);
    if DomainNameChange(a.post, a.pre).Some? {
      assert GetDomainName(a.store).Ok? by {
        RenamedStore(s, name, a);
        var k :| 0 <= k < |s| && IsDomainInfo(s[k]);
        assert IsDomainInfo(a.store[k]);
        forall i | 0 <= i < |a.store| && IsDomainInfo(a.store[i])
          ensures Vals(a.store[i], "domain_name") == {Str(name)}
        {
          assert IsDomainInfo(s[i]);
        }
        DomainNameIs(a.store, name);
      }
      RenamedKeepsNames(s, name, a);
      CascadeOk(a.store);
    }
  }

  /** `create` with this plugin as the only one: `pre_create_transform` runs on the
      candidates with the store's domain name, and the results are appended. The
      storage ids the candidates carry are taken as given. */
  function Create(s: Store, cands: seq<Entry>): (r: Result<Store, OperationError>)
    ensures r.Ok? ==> |r.value| == |s| + |cands| && r.value[..|s|] == s
    ensures r.Ok? ==> forall k :: 0 <= k < |cands| ==> r.value[|s| + k].id == cands[k].id
    ensures r.Ok? <==> (!HasTarget(cands) ||
      (GetDomainName(s).Ok? && forall k :: 0 <= k < |cands| && IsSpnTarget(cands[k]) ==> HasName(cands[k])))
  {
    var out :- Regenerate(GetDomainName(s), cands);
    assert forall k :: 0 <= k < |out| ==> (s + out)[|s| + k] == out[k];
    Ok(s + out)
  }

  /** Creating entries other than the domain-info entry, with fresh storage ids, keeps
      the invariant: the new accounts and groups arrive with the right SPN, whatever
      SPN the request carried. */
  lemma CreateKeepsSpnInvariant(s: Store, cands: seq<Entry>)
    requires DistinctIds(s + cands) && SpnInvariant(s)
    requires forall k :: 0 <= k < |cands| ==> !IsDomainInfo(cands[k])
    requires Create(s, cands).Ok?
    ensures DistinctIds(Create(s, cands).value)
    ensures SpnInvariant(Create(s, cands).value)
    ensures GetDomainName(Create(s, cands).value) == GetDomainName(s)
  {
    var out := Regenerate(GetDomainName(s), cands).value;
    var r := Create(s, cands).value;
    assert r == s + out;
    IdsKept(s + cands, r);
    forall k | 0 <= k < |out| ensures !IsDomainInfo(out[k]) {
      assert Vals(out[k], "uuid") == Vals(cands[k], "uuid");
    }
    DomainNameOfAppend(s, out);
    if GetDomainName(s).Ok? {
      var d := GetDomainName(s).value;
      RegeneratedIsConsistent(d, cands, out);
      forall i | 0 <= i < |r| && IsSpnTarget(r[i]) ensures Consistent(r[i], d) {
        if i < |s| {
          assert r[i] == s[i];
        } else {
          assert r[i] == out[i - |s|];
        }
      }
    }
  }

  /** `verify` run against the store: the domain name is looked up, the accounts and
      groups are searched, and every one of them whose SPN is missing or wrong is
      reported, so the report is empty exactly when the invariant holds. */
  method VerifyStore(s: Store) returns (r: seq<Result<(), ConsistencyError>>)
    ensures GetDomainName(s).Err? ==> r == [Err(QueryServerSearchFailure)]
    ensures GetDomainName(s).Ok? ==> r == Findings(GetDomainName(s).value, Search(s, IsSpnTarget))
    ensures GetDomainName(s).Ok? ==> (r == [] <==> AllConsistent(s, GetDomainName(s).value))
    ensures GetDomainName(s).Ok? ==> forall x :: x in r ==>
      exists i :: 0 <= i < |s| && IsSpnTarget(s[i]) && !Consistent(s[i], GetDomainName(s).value) &&
        x == Err(InvalidSpn(s[i].id))
    ensures GetDomainName(s).Ok? ==>
      forall i :: 0 <= i < |s| && IsSpnTarget(s[i]) && !Consistent(s[i], GetDomainName(s).value) ==>
        Err(InvalidSpn(s[i].id)) in r
  {
    var targets := Search(s, IsSpnTarget);
    r := Verify(GetDomainName(s), Ok(targets));
    if GetDomainName(s).Ok? {
      var d := GetDomainName(s).value;
      FindingsEmpty(d, targets);
      FindingsSound(d, targets);
      FindingsComplete(d, targets);
      forall i | 0 <= i < |s| && IsSpnTarget(s[i]) ensures s[i] in targets {
      }
      forall j | 0 <= j < |targets| ensures targets[j] in s && IsSpnTarget(targets[j]) {
        assert targets[j] in targets;
      }
    }
  }
}

=== FILE: spn.dfy ===
/** The SPN plugin (`plugin_spn`): every entry of class `account` or `group` carries
    exactly one service principal name, `name@domain`, derived from its own name and
    the domain name held on the domain-info entry.

    - `PreCreateTransform` and `PreModify` overwrite `spn` on every such candidate;
    - `PostModify` notices a rename of the domain and purges `spn` on every account
      and group, which the nested modify's `pre_modify` regenerates;
    - `Verify` recomputes every SPN and reports the ones that are missing or wrong. */
module Spn {
  import opened Wrappers
  import opened Entries
  import opened Proto
  import opened Store

  /** The plugin acts on entries whose `class` holds `group` or `account`. */
  predicate IsSpnTarget(e: Entry) {
    AttributeValuePres(e, "class", Str("group")) || AttributeValuePres(e, "class", Str("account"))
  }

  /** Some entry among the first `n` of `cand` is a target. */
  predicate TargetBefore(cand: seq<Entry>, n: nat)
    requires n <= |cand|
  {
    exists k :: 0 <= k < n && IsSpnTarget(cand[k])
  }

  predicate HasTarget(cand: seq<Entry>) {
    TargetBefore(cand, |cand|)
  }

  /** A candidate after the plugin's write: a target whose SPN can be generated gets
      `spn` set to exactly that value; anything else is left as it is. */
  function Stamp(e: Entry, domain: string): Entry {
    if IsSpnTarget(e) then
      match GenerateSpn(e, domain)
      case Some(spn) => SetAva(e, "spn", {spn})
      case None => e
    else e
  }

  /** What either pre-hook computes from the candidates and the result the domain-name
      lookup would give: the hook fails when a target exists and the lookup fails, or
      when a target has no single name; otherwise every target is stamped. */
  function Regenerate(lookup: Result<string, OperationError>, cand: seq<Entry>): (r: Result<seq<Entry>, OperationError>)
    ensures r.Ok? <==>
      !HasTarget(cand) || (lookup.Ok? && forall i :: 0 <= i < |cand| && IsSpnTarget(cand[i]) ==> HasName(cand[i]))
    ensures r.Err? && lookup.Err? ==> r.error == lookup.error
    ensures r.Err? && lookup.Ok? ==> r.error == InvalidEntryState
    ensures r.Ok? ==> |r.value| == |cand|
    ensures r.Ok? ==> forall i :: 0 <= i < |cand| ==> r.value[i].id == cand[i].id
    ensures r.Ok? ==> forall i :: 0 <= i < |cand| && !IsSpnTarget(cand[i]) ==> r.value[i] == cand[i]
    ensures r.Ok? ==> forall i, a :: 0 <= i < |cand| && a != "spn" ==> Vals(r.value[i], a) == Vals(cand[i], a)
    ensures r.Ok? ==> forall i :: 0 <= i < |cand| && IsSpnTarget(cand[i]) ==>
      Vals(r.value[i], "spn") == {SpnValue(NameOf(cand[i]), lookup.value)}
  {
    if !HasTarget(cand) then Ok(cand)
    else
      match lookup
      case Err(e) => Err(e)
      case Ok(domain) =>
        if exists i :: 0 <= i < |cand| && IsSpnTarget(cand[i]) && !HasName(cand[i]) then
          Err(InvalidEntryState)
        else
          Ok(seq(|cand|, i requires 0 <= i < |cand| => Stamp(cand[i], domain)))
  }

  /** The loop shared by both pre-hooks, as the source writes it: the domain name is
      fetched when the first target is met and remembered for the rest (`fetches`
      counts the lookups), and the first failure ends the loop. */
  method SetSpnOnTargets(lookup: Result<string, OperationError>, cand: seq<Entry>)
    returns (r: Result<seq<Entry>, OperationError>, fetches: nat)
    ensures r == Regenerate(lookup, cand)
    ensures fetches <= 1
    ensures fetches == 1 <==> HasTarget(cand)
  {
    var domain: Option<string> := None;
    var out: seq<Entry> := [];
    fetches := 0;
    var i := 0;
    while i < |cand|
      invariant 0 <= i <= |cand|
      invariant |out| == i
      invariant domain.Some? <==> TargetBefore(cand, i)
      invariant domain.Some? ==> lookup == Ok(domain.value)
      invariant fetches == if domain.Some? then 1 else 0
      invariant forall k :: 0 <= k < i && !IsSpnTarget(cand[k]) ==> out[k] == cand[k]
      invariant domain.Some? ==>
        forall k :: 0 <= k < i && IsSpnTarget(cand[k]) ==> HasName(cand[k]) && out[k] == Stamp(cand[k], domain.value)
    {
      var e := cand[i];
      if IsSpnTarget(e) {
        if domain.None? {
          fetches := fetches + 1;
          match lookup {
            case Err(err) =>
              return Err(err), fetches;
            case Ok(d) =>
              domain := Some(d);
          }
        }
        var spn := GenerateSpn(e, domain.value);
        if spn.None? {
          return Err(InvalidEntryState), fetches;
        }
        e := SetAva(e, "spn", {spn.value});
      }
      out := out + [e];
      i := i + 1;
    }
    if domain.None? {
      assert out == cand;
    } else {
      assert out == seq(|cand|, k requires 0 <= k < |cand| => Stamp(cand[k], domain.value));
    }
    return Ok(out), fetches;
  }

  /** `pre_create_transform`: overwrite `spn` on every new account or group. */
  method PreCreateTransform(lookup: Result<string, OperationError>, cand: seq<Entry>)
    returns (r: Result<seq<Entry>, OperationError>, fetches: nat)
    ensures r == Regenerate(lookup, cand)
    ensures fetches <= 1
    ensures fetches == 1 <==> HasTarget(cand)
  {
    r, fetches := SetSpnOnTargets(lookup, cand);
  }

  /** `pre_modify`: overwrite `spn` on every modified account or group. */
  method PreModify(lookup: Result<string, OperationError>, cand: seq<Entry>)
    returns (r: Result<seq<Entry>, OperationError>, fetches: nat)
    ensures r == Regenerate(lookup, cand)
    ensures fetches <= 1
    ensures fetches == 1 <==> HasTarget(cand)
  {
    r, fetches := SetSpnOnTargets(lookup, cand);
  }

  /** The entry's stored SPN is the single value `generate_spn` gives for `domain`. */
  predicate Consistent(e: Entry, domain: string) {
    var g := GenerateSpn(e, domain);
    g.Some? && GetAvaSingle(e, "spn") == g
  }

  /** Every account and group of the store is consistent with `domain`. */
  predicate AllConsistent(s: Store, domain: string) {
    forall i :: 0 <= i < |s| && IsSpnTarget(s[i]) ==> Consistent(s[i], domain)
  }

  /** After a successful pre-hook every target holds exactly the SPN the audit expects. */
  lemma RegeneratedIsConsistent(domain: string, cand: seq<Entry>, out: seq<Entry>)
    requires Regenerate(Ok(domain), cand) == Ok(out)
    ensures |out| == |cand|
    ensures forall i :: 0 <= i < |out| ==> (IsSpnTarget(out[i]) <==> IsSpnTarget(cand[i]))
    ensures forall i :: 0 <= i < |out| && IsSpnTarget(out[i]) ==> Consistent(out[i], domain)
    ensures AllConsistent(out, domain)
  {
    forall i | 0 <= i < |out| && IsSpnTarget(cand[i])
      ensures Consistent(out[i], domain)
    {
      assert Vals(out[i], "name") == Vals(cand[i], "name");
      assert GetAvaSingle(out[i], "name") == GetAvaSingle(cand[i], "name");
    }
    forall i | 0 <= i < |out|
      ensures IsSpnTarget(out[i]) <==> IsSpnTarget(cand[i])
    {
      assert Vals(out[i], "class") == Vals(cand[i], "class");
    }
  }

  /** The audit's finding for one entry. */
  function Finding(domain: string, e: Entry): seq<Result<(), ConsistencyError>> {
    if Consistent(e, domain) then [] else [Err(InvalidSpn(e.id))]
  }

  /** The findings the audit reports for `es`, in order: one `InvalidSpn` per entry
      whose SPN is missing, multi-valued, wrong, or cannot be generated. */
  function Findings(domain: string, es: seq<Entry>): (r: seq<Result<(), ConsistencyError>>)
    ensures |r| <= |es|
    decreases |es|
  {
    if |es| == 0 then []
    else Findings(domain, es[..|es| - 1]) + Finding(domain, es[|es| - 1])
  }

  /** `f` is an `InvalidSpn` finding for an entry of `es` whose SPN is wrong. */
  predicate NamesBadEntry(domain: string, es: seq<Entry>, f: Result<(), ConsistencyError>) {
    f.Err? && f.error.InvalidSpn? &&
    exists i :: 0 <= i < |es| && f.error.id == es[i].id && !Consistent(es[i], domain)
  }

  /** Every finding names an entry of `es` whose SPN is wrong. */
  lemma {:induction false} FindingsSound(domain: string, es: seq<Entry>)
    ensures forall f :: f in Findings(domain, es) ==> NamesBadEntry(domain, es, f)
    decreases |es|
  {
    if |es| > 0 {
      var init := es[..|es| - 1];
      FindingsSound(domain, init);
      forall f | f in Findings(domain, es) ensures NamesBadEntry(domain, es, f) {
        if f in Findings(domain, init) {
          var i :| 0 <= i < |init| && f.error.id == init[i].id && !Consistent(init[i], domain);
          assert init[i] == es[i];
        } else {
          assert f == Err(InvalidSpn(es[|es| - 1].id));
        }
      }
    }
  }

  /** Every entry of `es` whose SPN is wrong is named by a finding. */
  lemma {:induction false} FindingsComplete(domain: string, es: seq<Entry>)
    ensures forall i :: 0 <= i < |es| && !Consistent(es[i], domain) ==>
      Err(InvalidSpn(es[i].id)) in Findings(domain, es)
    decreases |es|
  {
    if |es| > 0 {
      var init := es[..|es| - 1];
      FindingsComplete(domain, init);
      assert forall i :: 0 <= i < |init| ==> init[i] == es[i];
    }
  }

  /** The audit reports nothing exactly when every SPN in `es` is right. */
  lemma {:induction false} FindingsEmpty(domain: string, es: seq<Entry>)
    ensures Findings(domain, es) == [] <==> forall i :: 0 <= i < |es| ==> Consistent(es[i], domain)
    decreases |es|
  {
    if |es| > 0 {
      var init := es[..|es| - 1];
      FindingsEmpty(domain, init);
      assert forall i :: 0 <= i < |init| ==> init[i] == es[i];
    }
  }

  /** `verify`: the read-only audit. A failed domain-name lookup or search is reported
      as one `QueryServerSearchFailure`; otherwise the findings for the entries the
      search returned. */
  method Verify(lookup: Result<string, OperationError>, search: Result<seq<Entry>, OperationError>)
    returns (r: seq<Result<(), ConsistencyError>>)
    ensures lookup.Err? || search.Err? ==> r == [Err(QueryServerSearchFailure)]
    ensures lookup.Ok? && search.Ok? ==> r == Findings(lookup.value, search.value)
  {
    if lookup.Err? {
      return [Err(QueryServerSearchFailure)];
    }
    var domain := lookup.value;
    if search.Err? {
      return [Err(QueryServerSearchFailure)];
    }
    var all := search.value;
    r := [];
    var i := 0;
    while i < |all|
      invariant 0 <= i <= |all|
      invariant r == Findings(domain, all[..i])
    {
      var e := all[i];
      var invalid := CheckSpn(e, domain);
      if invalid {
        r := r + [Err(InvalidSpn(e.id))];
      }
      FindingsSnoc(domain, all[..i], e);
      assert all[..i + 1] == all[..i] + [e];
      i := i + 1;
    }
    assert all[..i] == all;
  }

  /** One entry of the audit: its SPN cannot be generated, is missing or multi-valued,
      or differs from the generated one. */
  method CheckSpn(e: Entry, domain: string) returns (invalid: bool)
    ensures invalid <==> !Consistent(e, domain)
  {
    match GenerateSpn(e, domain) {
      case None =>
        invalid := true;
      case Some(g) =>
        match GetAvaSingle(e, "spn") {
          case Some(stored) =>
            invalid := stored != g;
          case None =>
            invalid := true;
        }
    }
  }

  /** The audit's findings for one more entry are the old findings plus that entry's. */
  lemma FindingsSnoc(domain: string, es: seq<Entry>, e: Entry)
    ensures Findings(domain, es + [e]) == Findings(domain, es) + Finding(domain, e)
  {
    assert (es + [e])[..|es|] == es;
  }

  /** A store whose SPNs are all right except one entry's, altered behind the plugin's
      back, yields exactly one finding, for that entry. */
  lemma {:induction false} OneBadEntryOneFinding(domain: string, es: seq<Entry>, k: nat)
    requires k < |es|
    requires !Consistent(es[k], domain)
    requires forall i :: 0 <= i < |es| && i != k ==> Consistent(es[i], domain)
    ensures Findings(domain, es) == [Err(InvalidSpn(es[k].id))]
    decreases |es|
  {
    var init := es[..|es| - 1];
    if k == |es| - 1 {
      FindingsEmpty(domain, init);
    } else {
      OneBadEntryOneFinding(domain, init, k);
    }
  }

  /** The domain-info pair that makes `post_modify` act: the post-image carries the
      domain-info uuid and a single `domain_name` that differs from the pre-image's. */
  predicate Triggers(post: Entry, pre: Entry) {
    var after := GetAvaSingle(post, "domain_name");
    IsDomainInfo(post) && after != GetAvaSingle(pre, "domain_name") && after.Some?
  }

  /** One step of the source's fold over (post, pre) pairs: once a value is chosen it
      is kept; otherwise a changed domain-info pair contributes its new value, which
      is none when the new `domain_name` is not single-valued. */
  function ChangeStep(acc: Option<Value>, post: Entry, pre: Entry): Option<Value> {
    if acc.Some? then acc
    else if IsDomainInfo(post) && GetAvaSingle(post, "domain_name") != GetAvaSingle(pre, "domain_name") then
      GetAvaSingle(post, "domain_name")
    else acc
  }

  /** Pair `j` is the first (post, pre) pair that triggers. */
  predicate FirstTrigger(post: seq<Entry>, pre: seq<Entry>, j: nat) {
    && j < |post| && j < |pre|
    && Triggers(post[j], pre[j])
    && forall k :: 0 <= k < j ==> !Triggers(post[k], pre[k])
  }

  /** Dropping a leading pair that does not trigger shifts the first trigger by one. */
  lemma FirstTriggerShift(post: seq<Entry>, pre: seq<Entry>, j: nat)
    requires |post| > 0 && |pre| > 0
    requires !Triggers(post[0], pre[0])
    requires FirstTrigger(post[1..], pre[1..], j)
    ensures FirstTrigger(post, pre, j + 1)
  {
    assert post[1..][j] == post[j + 1] && pre[1..][j] == pre[j + 1];
    forall k | 0 <= k < j + 1 ensures !Triggers(post[k], pre[k]) {
      if k > 0 {
        assert post[1..][k - 1] == post[k] && pre[1..][k - 1] == pre[k];
      }
    }
  }

  /** The fold itself, over the pairs `zip` forms (as many as the shorter side). */
  function ChangeFold(acc: Option<Value>, post: seq<Entry>, pre: seq<Entry>): (r: Option<Value>)
    ensures acc.Some? ==> r == acc
    ensures acc.None? ==>
      (r.None? <==> forall j :: 0 <= j < |post| && j < |pre| ==> !Triggers(post[j], pre[j]))
    ensures acc.None? && r.Some? ==>
      exists j: nat :: FirstTrigger(post, pre, j) && r == GetAvaSingle(post[j], "domain_name")
    decreases |post|
  {
    if |post| == 0 || |pre| == 0 then acc
    else
      var r := ChangeFold(ChangeStep(acc, post[0], pre[0]), post[1..], pre[1..]);
      assert forall j :: 1 <= j < |post| && j < |pre| ==>
        post[1..][j - 1] == post[j] && pre[1..][j - 1] == pre[j];
      if acc.None? && r.Some? && !Triggers(post[0], pre[0]) then
        var j: nat :| FirstTrigger(post[1..], pre[1..], j) && r == GetAvaSingle(post[1..][j], "domain_name");
        FirstTriggerShift(post, pre, j);
        r
      else
        assert acc.None? && Triggers(post[0], pre[0]) ==> FirstTrigger(post, pre, 0);
        r
  }

  /** `post_modify`'s detection: the new domain name chosen from the first pair that
      renames the domain-info entry to a single value, or none. */
  function DomainNameChange(post: seq<Entry>, pre: seq<Entry>): Option<Value> {
    ChangeFold(None, post, pre)
  }

  /** What a modify has done once its candidates are persisted: the new store, and
      the candidates before (`pre`) and after (`post`) the modlist and pre-hooks. */
  datatype Applied = Applied(store: Store, pre: seq<Entry>, post: seq<Entry>)

  /** `internal_modify` with this plugin as the only one: search the store, apply the
      modlist to every match, run `pre_modify` with the store's domain name, and write
      the candidates back. The post-hooks of this nested call are not run here; see
      `CascadeDoesNotRetrigger`. */
  function InternalModify(s: Store, f: Entry -> bool, ms: seq<Modify>): (r: Result<Applied, OperationError>)
    ensures r.Ok? ==> |r.value.pre| == |r.value.post|
    ensures r.Ok? ==> r.value.store == Persist(s, r.value.post)
    ensures r.Ok? ==> forall j :: 0 <= j < |r.value.pre| ==> r.value.pre[j] in s && f(r.value.pre[j])
    ensures r.Ok? ==> forall e :: e in s && f(e) ==> e in r.value.pre
  {
    var pre := Search(s, f);
    var post :- Regenerate(GetDomainName(s), ApplyAll(pre, ms));
    Ok(Applied(Persist(s, post), pre, post))
  }

  /** The parts a successful internal modify is made of. */
  lemma InternalModifyParts(s: Store, f: Entry -> bool, ms: seq<Modify>)
    requires InternalModify(s, f, ms).Ok?
    ensures var a := InternalModify(s, f, ms).value;
      && a.pre == Search(s, f)
      && Regenerate(GetDomainName(s), ApplyAll(a.pre, ms)) == Ok(a.post)
      && a.store == Persist(s, a.post)
  {
  }

  /** Position by position, a successful internal modify replaces each matching entry
      by its candidate's post-image and keeps every other entry. */
  lemma InternalModifyPointwise(s: Store, f: Entry -> bool, ms: seq<Modify>)
    requires DistinctIds(s)
    requires InternalModify(s, f, ms).Ok?
    ensures var a := InternalModify(s, f, ms).value;
      forall i :: 0 <= i < |s| && !f(s[i]) ==> a.store[i] == s[i]
    ensures var a := InternalModify(s, f, ms).value;
      forall i :: 0 <= i < |s| && f(s[i]) ==>
        exists j :: 0 <= j < |a.pre| && a.pre[j] == s[i] && a.store[i] == a.post[j]
  {
    var a := InternalModify(s, f, ms).value;
    var pre := Search(s, f);
    var post := Regenerate(GetDomainName(s), ApplyAll(pre, ms)).value;
    assert a == Applied(Persist(s, post), pre, post);
    PersistSearched(s, f, pre, post);
  }

  /** `post_modify`: when some pair renames the domain, purge `spn` on every account
      and group with one internal modify; otherwise do nothing. */
  function PostModify(s: Store, pre: seq<Entry>, post: seq<Entry>): (r: Result<Store, OperationError>)
    ensures DomainNameChange(post, pre).None? ==> r == Ok(s)
    ensures r.Ok? ==> |r.value| == |s|
    ensures r.Ok? ==> forall i :: 0 <= i < |s| ==> r.value[i].id == s[i].id
    ensures r.Ok? && DistinctIds(s) ==>
      forall i, b :: 0 <= i < |s| && b != "spn" ==> Vals(r.value[i], b) == Vals(s[i], b)
    ensures r.Ok? && DistinctIds(s) ==>
      forall i :: 0 <= i < |s| && !IsSpnTarget(s[i]) ==> r.value[i] == s[i]
    ensures r.Ok? && DistinctIds(s) ==> GetDomainName(r.value) == GetDomainName(s)
    ensures r.Ok? && DistinctIds(s) && GetDomainName(s).Ok? && DomainNameChange(post, pre).Some? ==>
      AllConsistent(r.value, GetDomainName(s).value)
  {
    match DomainNameChange(post, pre)
    case None => Ok(s)
    case Some(_) =>
      var a :- InternalModify(s, IsSpnTarget, [Purged("spn")]);
      CascadeRepairs(s, a);
      Ok(a.store)
  }

  /** The cascade's internal modify changes nothing but `spn`, leaves every entry that
      is neither account nor group exactly as it was, keeps the domain name, and leaves
      every account and group consistent with it. */
  lemma CascadeRepairs(s: Store, a: Applied)
    requires InternalModify(s, IsSpnTarget, [Purged("spn")]) == Ok(a)
    ensures DistinctIds(s) ==>
      forall i, b :: 0 <= i < |s| && b != "spn" ==> Vals(a.store[i], b) == Vals(s[i], b)
    ensures DistinctIds(s) ==> forall i :: 0 <= i < |s| && !IsSpnTarget(s[i]) ==> a.store[i] == s[i]
    ensures DistinctIds(s) ==> GetDomainName(a.store) == GetDomainName(s)
    ensures DistinctIds(s) && GetDomainName(s).Ok? ==> AllConsistent(a.store, GetDomainName(s).value)
  {
    if DistinctIds(s) {
      InternalModifyPointwise(s, IsSpnTarget, [Purged("spn")]);
      forall i | 0 <= i < |s|
        ensures forall b :: b != "spn" ==> Vals(a.store[i], b) == Vals(s[i], b)
        ensures IsSpnTarget(a.store[i]) && GetDomainName(s).Ok? ==> Consistent(a.store[i], GetDomainName(s).value)
      {
        if IsSpnTarget(s[i]) {
          CascadeAt(s, a, i);
        }
      }
      DomainNameFromDomainInfo(a.store, s);
    }
  }

  /** One account or group after the cascade: only its `spn` changed, and that now
      matches the store's domain name. */
  lemma CascadeAt(s: Store, a: Applied, i: nat)
    requires InternalModify(s, IsSpnTarget, [Purged("spn")]) == Ok(a)
    requires i < |s| && i < |a.store| && IsSpnTarget(s[i])
    requires exists j :: 0 <= j < |a.pre| && a.pre[j] == s[i] && a.store[i] == a.post[j]
    ensures forall b :: b != "spn" ==> Vals(a.store[i], b) == Vals(s[i], b)
    ensures GetDomainName(s).Ok? ==> Consistent(a.store[i], GetDomainName(s).value)
  {
    var ms := [Purged("spn")];
    InternalModifyParts(s, IsSpnTarget, ms);
    var j :| 0 <= j < |a.pre| && a.pre[j] == s[i] && a.store[i] == a.post[j];
    var cand := ApplyAll(a.pre, ms);
    RegenerateAt(GetDomainName(s), cand, a.post, j);
    PurgedThenStamped(s[i], cand[j], a.store[i], GetDomainName(s));
  }

  /** An account or group whose `spn` was purged and then regenerated differs from
      the original only in `spn`, which is now right for the domain. */
  lemma PurgedThenStamped(x: Entry, c: Entry, y: Entry, lookup: Result<string, OperationError>)
    requires IsSpnTarget(x)
    requires c == ApplyModlist(x, [Purged("spn")])
    requires forall b :: b != "spn" ==> Vals(y, b) == Vals(c, b)
    requires IsSpnTarget(c) ==>
      (lookup.Ok? && HasName(c) && Vals(y, "spn") == {SpnValue(NameOf(c), lookup.value)})
    ensures forall b :: b != "spn" ==> Vals(y, b) == Vals(x, b)
    ensures lookup.Ok? ==> Consistent(y, lookup.value)
  {
    forall b | b != "spn" ensures Vals(y, b) == Vals(x, b) {
      PurgeSpnKeeps(x, b);
    }
    assert Vals(c, "class") == Vals(x, "class");
    assert GetAvaSingle(y, "name") == GetAvaSingle(c, "name");
  }

  /** What a successful pre-hook did to candidate `j`. */
  lemma RegenerateAt(lookup: Result<string, OperationError>, cand: seq<Entry>, out: seq<Entry>, j: nat)
    requires Regenerate(lookup, cand) == Ok(out)
    requires j < |cand|
    ensures j < |out| && out[j].id == cand[j].id
    ensures forall b :: b != "spn" ==> Vals(out[j], b) == Vals(cand[j], b)
    ensures !IsSpnTarget(cand[j]) ==> out[j] == cand[j]
    ensures IsSpnTarget(cand[j]) ==>
      (lookup.Ok? && HasName(cand[j]) && Vals(out[j], "spn") == {SpnValue(NameOf(cand[j]), lookup.value)})
  {
    if IsSpnTarget(cand[j]) {
      assert HasTarget(cand);
    }
  }

  /** The nested modify issued by `post_modify` would not trigger `post_modify` again:
      no (post, pre) pair it produces changes `domain_name`, so the cascade stops after
      one level. */
  lemma CascadeDoesNotRetrigger(s: Store, a: Applied)
    requires InternalModify(s, IsSpnTarget, [Purged("spn")]) == Ok(a)
    ensures DomainNameChange(a.post, a.pre).None?
  {
    forall j | 0 <= j < |a.post| && j < |a.pre|
      ensures !Triggers(a.post[j], a.pre[j])
    {
      CascadePairKeepsName(s, a, j);
    }
  }

  /** Each (post, pre) pair of the cascade agrees on `domain_name`. */
  lemma CascadePairKeepsName(s: Store, a: Applied, j: nat)
    requires InternalModify(s, IsSpnTarget, [Purged("spn")]) == Ok(a)
    requires j < |a.pre|
    ensures j < |a.post| && Vals(a.post[j], "domain_name") == Vals(a.pre[j], "domain_name")
  {
    var ms := [Purged("spn")];
    InternalModifyParts(s, IsSpnTarget, ms);
    var cand := ApplyAll(a.pre, ms);
    RegenerateAt(GetDomainName(s), cand, a.post, j);
    PurgeSpnKeeps(a.pre[j], "domain_name");
  }

  /** Purging `spn` leaves every other attribute as it was. */
  lemma PurgeSpnKeeps(e: Entry, b: Attr)
    requires b != "spn"
    ensures Vals(ApplyModlist(e, [Purged("spn")]), b) == Vals(e, b)
  {
    assert !Mentions([Purged("spn")], b);
  }
}

=== FILE: store.dfy ===
/** The committed entries of a write transaction, and the query-server operations
    the SPN plugin calls on them: search by a filter, write candidates back by id,
    and `get_domain_name`. The server and backend code is not part of this model;
    a store here is the sequence of committed entries in id order, and a filter is
    any total predicate on entries. */
module Store {
  import opened Wrappers
  import opened Entries
  import opened Proto

  type Store = seq<Entry>

  /** The fixed, well-known uuid of the domain-info entry (`UUID_DOMAIN_INFO`).
      No proof depends on its spelling. */
  const DomainInfoUuid: string := "00000000-0000-0000-0000-ffffff000025"

  /** The entry carries the domain-info uuid. */
  predicate IsDomainInfo(e: Entry) {
    AttributeValuePres(e, "uuid", Str(DomainInfoUuid))
  }

  /** No two entries share a storage id. */
  predicate DistinctIds(s: seq<Entry>) {
    forall i, j :: 0 <= i < j < |s| ==> s[i].id != s[j].id
  }

  /** `internal_search`: the entries that match `f`, in store order. */
  function Search(s: Store, f: Entry -> bool): (r: seq<Entry>)
    ensures |r| <= |s|
    ensures forall e :: e in r <==> e in s && f(e)
    ensures DistinctIds(s) ==> DistinctIds(r)
  {
    if |s| == 0 then []
    else
      var rest := Search(s[1..], f);
      assert DistinctIds(s) ==> forall e :: e in rest ==> e.id != s[0].id by {
        if DistinctIds(s) {
          forall e | e in rest ensures e.id != s[0].id {
            var k :| 0 <= k < |s[1..]| && s[1..][k] == e;
            assert s[k + 1] == e;
          }
        }
      }
      if f(s[0]) then [s[0]] + rest else rest
  }

  /** The entry of `es` with storage id `id`, if any. */
  function FindById(es: seq<Entry>, id: nat): (r: Option<Entry>)
    ensures r.Some? ==> r.value in es && r.value.id == id
    ensures r.None? <==> forall k :: 0 <= k < |es| ==> es[k].id != id
    ensures DistinctIds(es) ==> forall k :: 0 <= k < |es| && es[k].id == id ==> r == Some(es[k])
  {
    if |es| == 0 then None
    else if es[0].id == id then Some(es[0])
    else
      var r := FindById(es[1..], id);
      assert forall k :: 1 <= k < |es| ==> es[k] == es[1..][k - 1];
      r
  }

  /** Write modified candidates back: every stored entry whose id some candidate
      carries is replaced by that candidate; every other entry is kept. */
  function Persist(s: Store, out: seq<Entry>): (r: Store)
    ensures |r| == |s|
    ensures forall i :: 0 <= i < |s| ==> r[i].id == s[i].id
    ensures forall i :: 0 <= i < |s| && (forall k :: 0 <= k < |out| ==> out[k].id != s[i].id) ==> r[i] == s[i]
  {
    seq(|s|, i requires 0 <= i < |s| => FindById(out, s[i].id).GetOr(s[i]))
  }

  /** With candidate ids distinct, the stored entry a candidate's id names is replaced
      by that candidate. */
  lemma PersistAt(s: Store, out: seq<Entry>, i: nat, k: nat)
    requires DistinctIds(out)
    requires i < |s| && k < |out| && out[k].id == s[i].id
    ensures Persist(s, out)[i] == out[k]
  {
  }

  /** Apply one modlist to every candidate. */
  function ApplyAll(es: seq<Entry>, ms: seq<Modify>): (r: seq<Entry>)
    ensures |r| == |es|
    ensures forall i :: 0 <= i < |es| ==> r[i] == ApplyModlist(es[i], ms)
  {
    seq(|es|, i requires 0 <= i < |es| => ApplyModlist(es[i], ms))
  }

  /** The index of the first entry satisfying `p`. */
  function FirstIndex(s: Store, p: Entry -> bool): (r: Option<nat>)
    ensures r.Some? ==> r.value < |s| && p(s[r.value]) && forall k :: 0 <= k < r.value ==> !p(s[k])
    ensures r.None? <==> forall k :: 0 <= k < |s| ==> !p(s[k])
  {
    if |s| == 0 then None
    else if p(s[0]) then Some(0)
    else
      match FirstIndex(s[1..], p)
      case None => None
      case Some(k) => Some(k + 1)
  }

  /** `get_domain_name`: the single string value of `domain_name` on the domain-info
      entry; `NoMatchingEntries` when there is no such entry and `InvalidEntryState`
      when its `domain_name` is missing, multi-valued or not a string. */
  function GetDomainName(s: Store): (r: Result<string, OperationError>)
    ensures r == Err(NoMatchingEntries) <==> forall k :: 0 <= k < |s| ==> !IsDomainInfo(s[k])
    ensures r.Ok? ==>
      exists k :: 0 <= k < |s| && IsDomainInfo(s[k]) && Vals(s[k], "domain_name") == {Str(r.value)}
  {
    match FirstIndex(s, IsDomainInfo)
    case None => Err(NoMatchingEntries)
    case Some(k) =>
      match GetAvaSingle(s[k], "domain_name")
      case Some(Str(n)) => Ok(n)
      case _ => Err(InvalidEntryState)
  }

  /** Two stores of the same length whose entries agree, position by position, on
      carrying the domain-info uuid and, where they do, on `domain_name`, answer
      `get_domain_name` alike. */
  lemma DomainNameFromDomainInfo(s: Store, t: Store)
    requires |s| == |t|
    requires forall i :: 0 <= i < |s| ==> (IsDomainInfo(s[i]) <==> IsDomainInfo(t[i]))
    requires forall i :: 0 <= i < |s| && IsDomainInfo(s[i]) ==>
      Vals(s[i], "domain_name") == Vals(t[i], "domain_name")
    ensures GetDomainName(s) == GetDomainName(t)
  {
    var a, b := FirstIndex(s, IsDomainInfo), FirstIndex(t, IsDomainInfo);
    if a.Some? {
      assert a == b;
      assert GetAvaSingle(s[a.value], "domain_name") == GetAvaSingle(t[a.value], "domain_name");
    }
  }

  /** The same, when only the new store is known to have a single `domain_name` on
      its domain-info entry: if the new store answers, the old one gave that answer. */
  lemma DomainNameKept(s: Store, t: Store)
    requires |s| == |t|
    requires forall i :: 0 <= i < |s| ==> (IsDomainInfo(s[i]) <==> IsDomainInfo(t[i]))
    requires forall i :: 0 <= i < |t| && IsDomainInfo(t[i]) && GetAvaSingle(t[i], "domain_name").Some? ==>
      GetAvaSingle(t[i], "domain_name") == GetAvaSingle(s[i], "domain_name")
    ensures GetDomainName(t).Ok? ==> GetDomainName(s) == GetDomainName(t)
  {
    var a, b := FirstIndex(s, IsDomainInfo), FirstIndex(t, IsDomainInfo);
    if b.Some? {
      assert a == b;
    }
  }

  /** Appending entries none of which is the domain-info entry does not change the
      domain name the store answers. */
  lemma DomainNameOfAppend(s: Store, t: seq<Entry>)
    requires forall k :: 0 <= k < |t| ==> !IsDomainInfo(t[k])
    ensures GetDomainName(s + t) == GetDomainName(s)
  {
    var a, b := FirstIndex(s, IsDomainInfo), FirstIndex(s + t, IsDomainInfo);
    assert forall k :: 0 <= k < |s| ==> (s + t)[k] == s[k];
    if a.Some? {
      assert b == a;
      assert (s + t)[a.value] == s[a.value];
    } else {
      forall k | 0 <= k < |s + t| ensures !IsDomainInfo((s + t)[k]) {
        if k >= |s| {
          assert (s + t)[k] == t[k - |s|];
        }
      }
    }
  }

  /** Writing back one post-image per searched entry (same ids, same order) replaces
      exactly the entries the search matched and keeps all the others. */
  lemma PersistSearched(s: Store, f: Entry -> bool, pre: seq<Entry>, post: seq<Entry>)
    requires DistinctIds(s)
    requires pre == Search(s, f)
    requires |post| == |pre|
    requires forall j :: 0 <= j < |pre| ==> post[j].id == pre[j].id
    ensures forall i :: 0 <= i < |s| && !f(s[i]) ==> Persist(s, post)[i] == s[i]
    ensures forall i :: 0 <= i < |s| && f(s[i]) ==>
      exists j :: 0 <= j < |pre| && pre[j] == s[i] && Persist(s, post)[i] == post[j]
  {
    forall i | 0 <= i < |s| && !f(s[i])
      ensures Persist(s, post)[i] == s[i]
    {
      PersistKeepsUnmatched(s, f, pre, post, i);
    }
    assert DistinctIds(post) by {
      forall x, y | 0 <= x < y < |post| ensures post[x].id != post[y].id {
        assert post[x].id == pre[x].id && post[y].id == pre[y].id;
      }
    }
    forall i | 0 <= i < |s| && f(s[i])
      ensures exists j :: 0 <= j < |pre| && pre[j] == s[i] && Persist(s, post)[i] == post[j]
    {
      assert s[i] in pre;
      var j :| 0 <= j < |pre| && pre[j] == s[i];
      PersistAt(s, post, i, j);
    }
  }

  /** An entry the search did not match has an id no post-image carries, so the
      write-back keeps it. */
  lemma PersistKeepsUnmatched(s: Store, f: Entry -> bool, pre: seq<Entry>, post: seq<Entry>, i: nat)
    requires DistinctIds(s)
    requires pre == Search(s, f)
    requires |post| == |pre|
    requires forall j :: 0 <= j < |pre| ==> post[j].id == pre[j].id
    requires i < |s| && !f(s[i])
    ensures Persist(s, post)[i] == s[i]
  {
    forall k | 0 <= k < |post| ensures post[k].id != s[i].id {
      assert pre[k] in s;
      var i' :| 0 <= i' < |s| && s[i'] == pre[k];
    }
  }
}

=== FILE: wrappers.dfy ===
/** Failure-compatible Option and Result types, used with `:-` throughout the model
    in place of Rust's `Option` and `Result`. */
module Wrappers {

  datatype Option<+T> = None | Some(value: T) {

    predicate IsFailure() {
      None?
    }

    function PropagateFailure<U>(): Option<U>
      requires None?
    {
      None
    }

    function Extract(): T
      requires Some?
    {
      value
    }

    /** The value, or `default` when there is none (Rust's `unwrap_or`). */
    function GetOr(default: T): T {
      match this
      case Some(v) => v
      case None => default
    }
  }

  datatype Result<+T, +E> = Ok(value: T) | Err(error: E) {

    predicate IsFailure() {
      Err?
    }

    function PropagateFailure<U>(): Result<U, E>
      requires Err?
    {
      Err(error)
    }

    function Extract(): T
      requires Ok?
    {
      value
    }
  }
}
